=== FILE: README.md ===
# Personal-finance dashboard: a verified model of its logic

The dashboard records incomes and expenses, filters and totals them, labels
each expense by how close its due date is, and computes a tithe of 10% per
income. Almost all of it is presentation. This project models the part that
decides something:

- the **expense record store**. It covers save (validation, then an update or an
  addition under `max(0, ids) + 1`), delete and toggle-paid, on an ordered list
  (`expense_store.dfy`);
- the **filter engines** of the expense tracker (search, month of the due date,
  category, payment status) and of the income tracker (search, month of the
  date, category with the `"all"` sentinel) (`expense_view.dfy`,
  `income_view.dfy`, with the shared search in `text.dfy` and the month test
  in `calendar.dfy`);
- the **aggregator** that drives the tracker's three summary cards
  (`expense_view.dfy`);
- the two **due-status classifiers**. The tracker has five tags
  (`expense_due_status.dfy`). The dashboard has three tags, and it also builds the
  "upcoming expenses" panel, the per-income tithe and the three-month
  comparison (`dashboard.dfy`);
- the **currency field's text clean-up** before `parseFloat`
  (`currency_input.dfy`);
- the **progress bar's fill percentage** (`progress_bar.dfy`).

Modelling choices:

- Instants are `int` epoch milliseconds. "Now" is a parameter.
- The calendar view (`getMonth`, `getFullYear`, `isToday`) is computed in UTC
  from the day number `floor(t / 86400000)`. Day numbers and dates of the
  proleptic Gregorian calendar convert both ways (`CivilFromDays`,
  `DaysFromCivil`), and the conversions are proved inverse on valid dates.
- The dashboard's incomes are the income tracker's records (`IncomeView.Income`).
- Amounts are `real`, so sums and the tithe are exact.
- React state becomes values that go in and come out. The store actions are
  functions from a list to a list. The form and the filter controls are
  datatypes.
- The expense tracker's category filter has no `"all"` sentinel; only the
  income tracker's has one (`IncomeTracker.tsx:16`). The model follows the
  code: on the expense side, `"all"` keeps only a category literally named
  `"all"`.
- Every `.filter(...)` of the source is `Seqs.Filter`. It is proved to keep
  every copy of each element that passes and no copy of any other element
  (`FilterMultiplicity`), in their original order (`IsSubsequence`).

## Model

| member | source | states |
|---|---|---|
| ExpenseStore.Save | src/components/Expenses/ExpenseTracker.tsx:161-199 | The save is rejected exactly when the description is empty, the amount is not positive, a date is unset or the category is empty. Otherwise it updates when the dialog was opened on an expense and adds when it was not. |
| ExpenseStore.IncompleteSaveKeepsStore | src/components/Expenses/ExpenseTracker.tsx:161-166 | If any required field is missing, the save fails and the list is left exactly as it was, with no id assigned. |
| ExpenseStore.MaxId | src/components/Expenses/ExpenseTracker.tsx:189 | `Math.max(0, ...ids)` is at least 0 and at least every id. It is 0 or one of the ids. |
| ExpenseStore.NextId | src/components/Expenses/ExpenseTracker.tsx:189 | The new id is at least 1 and greater than every existing id. |
| ExpenseStore.Add | src/components/Expenses/ExpenseTracker.tsx:187-198 | The length grows by one. The old list is an unchanged prefix. The new record is last, carries the form's fields and has an id no existing record has. |
| ExpenseStore.Update | src/components/Expenses/ExpenseTracker.tsx:168-185 | Length and every id are kept. Records with the edited id take the form's fields. Every other record is unchanged. An absent id changes nothing. |
| ExpenseStore.Delete | src/components/Expenses/ExpenseTracker.tsx:206-208 | No record with the id remains. Every other record stays with all its copies, in its original order. Nothing new appears. An absent id changes nothing. |
| ExpenseStore.TogglePaid | src/components/Expenses/ExpenseTracker.tsx:211-217 | `isPaid` flips exactly on the records with the id. No other field or record changes, and the length is kept. |
| ExpenseStore.TogglePaidTwice | src/components/Expenses/ExpenseTracker.tsx:211-217 | Toggling the same id twice restores the list. |
| ExpenseStore.AddThenDelete | src/components/Expenses/ExpenseTracker.tsx:187-208 | Deleting the id an addition just assigned restores the list before the addition, in order and content. |
| ExpenseStore.RunKeepsIdsUnique | src/components/Expenses/ExpenseTracker.tsx:161-217 | Ids stay pairwise distinct through any sequence of saves, deletes and toggles. |
| ExpenseView.FilterExpenses | src/components/Expenses/ExpenseTracker.tsx:220-242 | The view is an order-preserving subsequence of the list. Every shown expense passes all four controls. An expense that passes them appears as many times as in the list, and any other does not appear. |
| ExpenseView.ResetFilters | src/components/Expenses/ExpenseTracker.tsx:268-273 | The reset criteria clear the month and set the status to `"all"`, and they accept every expense. |
| ExpenseView.IsFilterActive | src/components/Expenses/ExpenseTracker.tsx:276 | The button shows exactly when the criteria differ from the reset criteria. When it is hidden, every expense passes. |
| ExpenseView.InactiveFilterShowsAll | src/components/Expenses/ExpenseTracker.tsx:275-276 | When no filter counts as active, the view is the whole list in its original order. |
| ExpenseView.ResetShowsAll | src/components/Expenses/ExpenseTracker.tsx:268-273 | The criteria the reset button sets (`""`, no month, `""`, `"all"`) show the whole list. |
| ExpenseView.FilterExpensesIdempotent | src/components/Expenses/ExpenseTracker.tsx:220-242 | Filtering the view again with the same criteria changes nothing. |
| ExpenseView.Summarize | src/components/Expenses/ExpenseTracker.tsx:245-251 | The total is the sum of the view's amounts. The paid card sums each expense's amount when paid (0 otherwise), and the pending card when unpaid. The counts are the numbers of paid and unpaid expenses. Paid plus pending is the total, and the two counts add up to the view's length. |
| ExpenseView.CardsSumMatchingExpenses | src/components/Expenses/ExpenseTracker.tsx:220-251 | The cards above the list sum the amounts of exactly those expenses of the whole list that every control accepts: all of them for the total, the paid ones and the unpaid ones for the other two cards. |
| ExpenseView.BucketsBoundedByTotal | src/components/Expenses/ExpenseTracker.tsx:245-251 | With positive amounts, the paid and the pending sum each lie between 0 and the total. |
| ExpenseDueStatus.GetDueStatus | src/components/Expenses/ExpenseTracker.tsx:254-265 | `paid` exactly when paid. `overdue` exactly when unpaid and due on an earlier day. `due-today` exactly when unpaid and due today. `due-soon` and `upcoming` only on a later day, split at a rounded-up day count of 3. `due-soon` means 1 to 3 days. |
| ExpenseDueStatus.DueTodayIsNeverOverdue | src/components/Expenses/ExpenseTracker.tsx:256-257 | An unpaid expense due today is `due-today`, even when its due instant has passed. |
| ExpenseDueStatus.ReferenceScenarios | src/components/Expenses/ExpenseTracker.tsx:254-265 | From 2024-06-15, the tags are: 5 days back overdue, same day due-today, 2 days ahead due-soon, 16 days ahead upcoming, paid always paid. |
| Calendar.CeilDays | src/components/Expenses/ExpenseTracker.tsx:259-261 | The day count is the least whole number of days covering the time to the due date. |
| Calendar.CivilFromDays | src/components/Expenses/ExpenseTracker.tsx:228-230 | The calendar view of a day has a month from 1 to 12 and a day within that month's Gregorian length: 30 or 31 days, and 28 for February, or 29 in a leap year (every fourth year, except centuries not divisible by 400). |
| Calendar.CivilRoundTrip | src/components/Expenses/ExpenseTracker.tsx:228-230 | Converting the calendar date of any day back to a day number, by the era, year-of-era and day-of-year count, gives that day again. So no two days share a date. |
| Calendar.DateRoundTrip | src/components/Expenses/ExpenseTracker.tsx:228-230 | Every valid date, with a month from 1 to 12 and a day within its month, is the calendar view of its own day number. With `CivilRoundTrip`, the calendar view is a one-to-one match between day numbers and valid dates. |
| Calendar.IsToday | src/components/Expenses/ExpenseTracker.tsx:256-257 | `isToday(t)` holds exactly when now lies in the 24-hour UTC day that holds `t`, and then both have the same calendar date. |
| Calendar.IsPast | src/components/Expenses/ExpenseTracker.tsx:256 | A past instant is on an earlier day or today. An instant on an earlier day is always past, and one on a later day never is. |
| Calendar.MatchesMonth | src/components/Income/IncomeTracker.tsx:11-13 | No month keeps every record. A month keeps exactly the records whose date has its year and month. An instant on the same day as the chosen one always matches. |
| Calendar.EpochIsNewYear1970 | src/components/Expenses/ExpenseTracker.tsx:228-230 | Day 0 of the calendar view is 1970-01-01. |
| Calendar.ReferenceDateIsJune15 | src/components/Expenses/ExpenseTracker.tsx:228-230 | The instant 1718409600000 is 2024-06-15 in the calendar view. |
| Calendar.MatchesMonthIgnoresTimeOfDay | src/components/Income/IncomeTracker.tsx:11-13 | Two instants on the same day pass or fail a month filter together. |
| Text.Includes | src/components/Income/IncomeTracker.tsx:5-8 | `includes` holds exactly when the term occurs at some position of the text. |
| Text.ToLower | src/components/Expenses/ExpenseTracker.tsx:222-225 | `toLowerCase` keeps the length, lowers each capital, leaves no capital, and keeps every other character where it was. |
| Text.MatchesSearch | src/components/Expenses/ExpenseTracker.tsx:222-225 | A record matches exactly when the lower-cased term occurs at some position of the lower-cased description or of the lower-cased category. |
| Text.EmptySearchMatchesAll | src/components/Income/IncomeTracker.tsx:5-8 | An empty search term matches every record. |
| Text.SearchIgnoresTermCase | src/components/Expenses/ExpenseTracker.tsx:222-225 | Lower-casing the term first does not change which records match. |
| Text.SearchFindsDescriptionSubstring | src/components/Income/IncomeTracker.tsx:5-8 | A term that occurs verbatim in the description always matches. |
| IncomeView.FilterIncomes | src/components/Income/IncomeTracker.tsx:3-19 | The view is an order-preserving subsequence of the incomes. Every shown income passes search, month and category. An income that passes them appears as many times as in the list, and any other does not appear. |
| IncomeView.CategoryFilterCases | src/components/Income/IncomeTracker.tsx:16 | `""` and `"all"` accept every category. Any other value accepts exactly that category. |
| IncomeView.MonthFilterCases | src/components/Income/IncomeTracker.tsx:11-13 | No month accepts all incomes. A month accepts exactly the incomes dated in the same month and year. |
| IncomeView.EmptyCriteriaShowAll | src/components/Income/IncomeTracker.tsx:3-19 | With every criterion empty, the view is the whole list in order. |
| IncomeView.AllSentinelEqualsEmpty | src/components/Income/IncomeTracker.tsx:16 | The `"all"` category shows the same list as the empty category. |
| IncomeView.FilterIncomesIdempotent | src/components/Income/IncomeTracker.tsx:3-19 | Filtering the view again with the same criteria changes nothing. |
| Dashboard.GetDueStatus | src/components/Dashboard.tsx:61-68 | `overdue` exactly when at least a whole day late. `due-soon` exactly from less than a day late to three days ahead. `upcoming` exactly beyond three days. |
| Dashboard.DueStatusByDayCount | src/components/Dashboard.tsx:63-67 | The three tags split the rounded-up day count at `< 0`, `0..3` and `> 3`. |
| Dashboard.ClassifiersAgree | src/components/Dashboard.tsx:61-68 | A dashboard `overdue` is a tracker `overdue`. The tracker's `due-soon` and `upcoming` are the dashboard's. |
| Dashboard.ClassifiersDifferBeforeToday | src/components/Dashboard.tsx:61-68 | An expense due one hour before today's midnight is `overdue` on the tracker but `due-soon` on the dashboard. |
| Dashboard.PendingExpenses | src/components/Dashboard.tsx:219-220 | Only records with status `"pending"` are kept, and every pending record keeps all its copies, in order. |
| Dashboard.SortByDueDate | src/components/Dashboard.tsx:221 | The result is a permutation of the input, ascending by due date. The sort is stable, as JavaScript's `Array.prototype.sort` is: for every instant, the records due at it appear in the same order as in the input. |
| Dashboard.InsertStable | src/components/Dashboard.tsx:221 | Inserting a record into a list sorted by due date puts it in front of the records due at the same instant, and keeps those in their order. |
| Dashboard.UpcomingExpenses | src/components/Dashboard.tsx:219-222 | The panel holds `min(3, pending)` records, all pending, ascending by due date, drawn from the pending ones. When the panel holds fewer copies of a record than the pending list does, no shown record is due after it. For every instant, the records due at it form a prefix of the pending records due at it. So the panel holds the earliest-due pending records, counting copies, and ties at the cut go to the records listed first. |
| Dashboard.AllDueTogether | src/components/Dashboard.tsx:219-222 | When every pending record is due at the same instant, the panel is a prefix of the pending list: its first three records, in list order. |
| Dashboard.NoPendingMessageIffPanelEmpty | src/components/Dashboard.tsx:264 | The "no pending expenses" card appears exactly when the panel is empty. |
| Dashboard.PaidNeverUpcoming | src/components/Dashboard.tsx:219-222 | A record whose status is not `"pending"` never appears in the panel. |
| Dashboard.Tithe | src/components/Dashboard.tsx:309 | Ten times the tithe is the amount. For a non-negative amount the tithe lies between 0 and the amount. |
| Dashboard.TitheOfTotal | src/components/Dashboard.tsx:309 | The tithes of a list of incomes sum to the tithe of their total. |
| Dashboard.RecentIncomes | src/components/Dashboard.tsx:287-316 | The panel shows the first `min(3, n)` incomes in order, each with a tenth of its amount. It is empty exactly when there are no incomes. |
| Dashboard.MonthlyComparison | src/components/Dashboard.tsx:391-396 | The last `min(3, n)` months are shown in their original order, each with net + expenses = income. |
| Dashboard.ShortHistoryShownWhole | src/components/Dashboard.tsx:391 | With three months or fewer, every month is shown, in order. |
| CurrencyInput.LastIndexOf | src/components/shared/CurrencyInput.tsx:33 | The result is -1 exactly when the character is absent. Otherwise it is a position holding the character with none after it. |
| CurrencyInput.Normalize | src/components/shared/CurrencyInput.tsx:29-40 | The output holds only digits, `-` and at most one `.`. It has a `.` exactly when the input has a comma. Its digits and `-` signs are the input's, in order. After the `.` come exactly the retained characters after the input's last comma. Without a comma, the output is just the input's digits and `-` signs. |
| CurrencyInput.NormalizeIsExpected | src/components/shared/CurrencyInput.tsx:29-40 | The clean-up equals a definition written from the input alone: the digits and signs before the last comma, a `.`, then the digits and signs after it. |
| ProgressBar.Percent | src/components/ui/ProgressBar.tsx:22 | For `max > 0` the fill lies in [0, 100]. It is 100 once `value >= max`, 0 once `value <= 0`, and `value / max * 100` in between. |
| ProgressBar.PercentMonotone | src/components/ui/ProgressBar.tsx:22 | A larger value never gives a smaller fill. |
| ProgressBar.GoalExamples | src/components/Dashboard.tsx:45-46 | The dashboard's goals, 3000 of 10000 and 1500 of 5000, both fill 30%. |

## Left out

- Presentation: JSX, class names, icons, animation, routing, dialog open and close, `clearForm` and `openEditDialog`. Of these, only the expense the dialog was opened on matters, and it is a form field.
- Currency and date formatting (`Intl.NumberFormat`, date-fns `format`, `toLocaleString`). So is `parseFloat` after the currency clean-up, which is a foreign numeric parser.
- IEEE floating point: amounts, sums, `amount * 0.1` and `value / max` are exact reals. NaN, Infinity and rounding are not modelled.
- Local time zones: the calendar view and `isToday` use UTC day boundaries.
- ExpenseDueStatus.GetDueStatus: `isPast`, `isToday` and `new Date()` read the clock separately. The model uses one "now" for all three reads.
- Text.ToLower: lower-cases ASCII and Latin-1 capitals only, not the whole of Unicode's `toLowerCase`.
- ProgressBar.Percent: requires `max > 0`. The source divides by any `max`, and `max = 0` gives NaN or Infinity.
- `Math.max(0, ...ids)` failing on a list too long to spread into arguments.
- The dashboard's hard-coded `totalIncome`, `totalExpenses`, `tithe` and `balance`. They are constants, not computed.
- The comparison bar's width `expenses / income * 100`, which is presentation and divides by a possibly zero income.
- The unused month selector of the dashboard.
- The console message of a failed save: the model returns `MissingRequiredField` and keeps the list.
- `IncomeTracker.tsx` is a fragment. The incomes and the three filter values are defined outside it and are parameters here.

=== FILE: calendar.dfy ===
/**
 Instants and their calendar view. An instant is a JavaScript `Date` reduced to
 its `getTime()` value, milliseconds since 1970-01-01T00:00Z. The calendar view
 (`getFullYear`, `getMonth`, `getDate`) and the day-level tests `isToday` and
 `isPast` of date-fns are computed in UTC: a local time zone is not modelled.
 */
module Calendar {
  import opened Seqs

  /** `1000 * 60 * 60 * 24`, the divisor both due-date classifiers use. */
  const MsPerDay: int := 86_400_000

  /** The number of whole days from the epoch to `t`, rounded down. */
  function DayNumber(t: int): int
  {
    t / MsPerDay
  }

  /** Earlier instants never fall on a later day. */
  lemma DayNumberMonotone(a: int, b: int)
    requires a <= b
    ensures DayNumber(a) <= DayNumber(b)
  {
  }

  /** A day number is the day of exactly the instants in its 24-hour window. */
  lemma DayNumberWindow(t: int)
    ensures DayNumber(t) * MsPerDay <= t < DayNumber(t) * MsPerDay + MsPerDay
  {
  }

  /**
   `Math.ceil(delta / MsPerDay)` for an integer `delta`: the least whole number
   of days that covers `delta` milliseconds.
   */
  function CeilDays(delta: int): (r: int)
    ensures (r - 1) * MsPerDay < delta <= r * MsPerDay
  {
    -((-delta) / MsPerDay)
  }

  /** A proleptic Gregorian date; `month` runs from 1 to 12 (JavaScript's `getMonth() + 1`). */
  datatype CivilDate = CivilDate(year: int, month: int, day: int)

  /** The Gregorian leap rule: every fourth year, except centuries not divisible by 400. */
  predicate IsLeapYear(year: int)
  {
    year % 4 == 0 && (year % 100 != 0 || year % 400 == 0)
  }

  /** The length of a month of the proleptic Gregorian calendar. */
  function DaysInMonth(year: int, month: int): int
  {
    if month == 2 then (if IsLeapYear(year) then 29 else 28)
    else if month == 4 || month == 6 || month == 9 || month == 11 then 30
    else 31
  }

  /**
   The conversion between day numbers and dates counts in 400-year eras of
   146 097 days. Eras start on 1 March 0000 (day -719 468), and so does each
   year of an era, so that the leap day comes last.
   */
  function Era(z: int): int
  {
    (z + 719_468) / 146_097
  }

  /** The day of its era on which day `z` falls. */
  function DayOfEra(z: int): int
  {
    z + 719_468 - Era(z) * 146_097
  }

  /** The year of a 400-year era that holds day `doe` of the era. */
  function YearOfEra(doe: int): int
  {
    (doe - doe / 1460 + doe / 36_524 - doe / 146_096) / 365
  }

  /** The day of its era on which year `yoe` of the era starts. */
  function YearStart(yoe: int): int
  {
    365 * yoe + yoe / 4 - yoe / 100
  }

  /** The day of its year on which day `doe` of an era falls. */
  function DayOfYear(doe: int): int
  {
    doe - YearStart(YearOfEra(doe))
  }

  /** The month, counted from March as 0, that holds day `doy` of the year. */
  function MonthIndex(doy: int): int
  {
    (5 * doy + 2) / 153
  }

  /** The day of the year on which month `mp` (March is 0) starts. */
  function MonthStart(mp: int): int
  {
    (153 * mp + 2) / 5
  }

  /** The date of day `doe` of era `era`. */
  function CivilOfEra(era: int, doe: int): CivilDate
  {
    var yoe := YearOfEra(doe);
    var doy := DayOfYear(doe);
    var mp := MonthIndex(doy);
    var month := if mp < 10 then mp + 3 else mp - 9;
    CivilDate(yoe + era * 400 + (if month <= 2 then 1 else 0), month, doy - MonthStart(mp) + 1)
  }

  /** A date that names a day: a month from 1 to 12 and a day within that month. */
  predicate ValidDate(d: CivilDate)
  {
    1 <= d.month <= 12 && 1 <= d.day <= DaysInMonth(d.year, d.month)
  }

  /** The calendar date of the day `z` days after 1970-01-01. */
  function CivilFromDays(z: int): (d: CivilDate)
    ensures 1 <= d.month <= 12
    ensures 1 <= d.day <= DaysInMonth(d.year, d.month) <= 31
  {
    DayInMonth(Era(z), DayOfEra(z));
    CivilOfEra(Era(z), DayOfEra(z))
  }

  /** The year, starting on 1 March, that holds date `d`. */
  function ShiftedYear(d: CivilDate): int
  {
    d.year - (if d.month <= 2 then 1 else 0)
  }

  /** The month of date `d`, counted from March as 0. */
  function MarchMonth(d: CivilDate): int
  {
    if d.month > 2 then d.month - 3 else d.month + 9
  }

  /** The day of its year, counted from 1 March, on which date `d` falls. */
  function DayOfYearOf(d: CivilDate): int
  {
    MonthStart(MarchMonth(d)) + d.day - 1
  }

  /** The day number of a proleptic Gregorian date, counted from 1970-01-01. */
  function DaysFromCivil(d: CivilDate): int
  {
    var y := ShiftedYear(d);
    var era := y / 400;
    var yoe := y - era * 400;
    era * 146_097 + YearStart(yoe) + DayOfYearOf(d) - 719_468
  }

  /** A positive multiple of a positive number is at least that number. */
  lemma MulAtLeast(x: int, b: int)
    requires x >= 1 && b > 0
    ensures x * b >= b
  {
  }

  /** A quotient is pinned down by the window its dividend falls in. */
  lemma DivIs(a: int, b: int, q: int)
    requires 0 < b && q * b <= a < q * b + b
    ensures a / b == q
  {
    var k := a / b;
    assert k * b <= a < k * b + b;
    if k < q {
      assert (q - k) * b == q * b - k * b;
      MulAtLeast(q - k, b);
    } else if k > q {
      assert (k - q) * b == k * b - q * b;
      MulAtLeast(k - q, b);
    }
  }

  /** Year `100c + 4f + g` of an era starts after `c` centuries, `f` four-year cycles and `g` years. */
  lemma YearStartSplit(c: int, f: int, g: int)
    requires 0 <= c <= 3 && 0 <= f <= 24 && 0 <= g <= 3
    ensures YearStart(100 * c + 4 * f + g) == 36_524 * c + 1461 * f + 365 * g
  {
    DivIs(100 * c + 4 * f + g, 4, 25 * c + f);
    DivIs(100 * c + 4 * f + g, 100, c);
  }

  /** The last day of an era is the leap day that ends its year 399. */
  lemma LastDayOfEra()
    ensures YearOfEra(146_096) == 399 && DayOfYear(146_096) == 365
  {
    DivIs(146_096, 1460, 100);
    DivIs(146_096, 36_524, 4);
    DivIs(146_096, 146_096, 1);
    DivIs(145_999, 365, 399);
    YearStartSplit(3, 24, 3);
  }

  /**
   A day of an era before its last splits into centuries `c`, four-year cycles
   `f` and years `g`. The day of the year is 365 only in the last year of a
   four-year cycle that does not end a century.
   */
  lemma {:induction false} CycleSplit(doe: int) returns (c: int, f: int, g: int)
    requires 0 <= doe < 146_096
    ensures 0 <= c <= 3 && 0 <= f <= 24 && 0 <= g <= 3
    ensures YearOfEra(doe) == 100 * c + 4 * f + g
    ensures DayOfYear(doe) == doe - (36_524 * c + 1461 * f + 365 * g)
    ensures 0 <= DayOfYear(doe) <= 364 || (DayOfYear(doe) == 365 && g == 3 && f < 24)
  {
    c := doe / 36_524;
    var r1 := doe - 36_524 * c;
    f := r1 / 1461;
    var r2 := r1 - 1461 * f;
    assert 0 <= c <= 3 && 0 <= f <= 24 && 0 <= r2 <= 1460;
    var doy;
    if r2 == 1460 {
      g, doy := 3, 365;
    } else {
      g := r2 / 365;
      doy := r2 - 365 * g;
    }
    YearOfEraFromParts(doe, c, f, g, doy);
    YearStartSplit(c, f, g);
  }

  /** Within a 400-year era, the year and the day of that year stay in range. */
  lemma {:induction false} EraBounds(doe: int)
    requires 0 <= doe < 146_097
    ensures 0 <= YearOfEra(doe) <= 399
    ensures 0 <= DayOfYear(doe) <= 365
  {
    if doe == 146_096 {
      LastDayOfEra();
    } else {
      var c, f, g := CycleSplit(doe);
    }
  }

  /**
   Day 365 of a year (counted from 1 March) is a 29 February: the calendar
   year that holds it is a leap year.
   */
  lemma {:induction false} LeapDayOfEra(era: int, doe: int)
    requires 0 <= doe < 146_097
    ensures DayOfYear(doe) == 365 ==> IsLeapYear(YearOfEra(doe) + era * 400 + 1)
  {
    var y := YearOfEra(doe) + era * 400 + 1;
    if DayOfYear(doe) != 365 {
    } else if doe == 146_096 {
      LastDayOfEra();
      DivIs(y, 4, 100 * era + 100);
      DivIs(y, 400, era + 1);
    } else {
      var c, f, g := CycleSplit(doe);
      DivIs(y, 4, 100 * era + 25 * c + f + 1);
      DivIs(y, 100, 4 * era + c);
    }
  }

  /** The month index of a day of the year, and where that month starts and ends. */
  lemma MonthIndexBounds(doy: int)
    requires 0 <= doy <= 365
    ensures 0 <= MonthIndex(doy) <= 11
    ensures MonthStart(MonthIndex(doy)) <= doy
    ensures MonthIndex(doy) < 11 ==> doy < MonthStart(MonthIndex(doy) + 1)
  {
  }

  /** The months from March to January, by index, have their Gregorian lengths. */
  lemma MonthLength(year: int, mp: int)
    requires 0 <= mp <= 10
    ensures MonthStart(mp + 1) - MonthStart(mp) == DaysInMonth(year, if mp < 10 then mp + 3 else mp - 9)
  {
  }

  /** The day of the month of a date in an era lies within its month's length. */
  lemma {:induction false} DayInMonth(era: int, doe: int)
    requires 0 <= doe < 146_097
    ensures 1 <= CivilOfEra(era, doe).day <= DaysInMonth(CivilOfEra(era, doe).year, CivilOfEra(era, doe).month)
  {
    EraBounds(doe);
    var doy := DayOfYear(doe);
    MonthIndexBounds(doy);
    var mp := MonthIndex(doy);
    var d := CivilOfEra(era, doe);
    if mp < 11 {
      MonthLength(d.year, mp);
    } else {
      assert MonthStart(11) == 337;
      if doy == 365 {
        LeapDayOfEra(era, doe);
      }
    }
  }

  /** Within an era, converting a day to its date and back gives the same day. */
  lemma {:induction false} EraRoundTrip(era: int, doe: int)
    requires 0 <= doe < 146_097
    ensures DaysFromCivil(CivilOfEra(era, doe)) == era * 146_097 + doe - 719_468
  {
    EraBounds(doe);
    var yoe := YearOfEra(doe);
    var doy := DayOfYear(doe);
    var mp := MonthIndex(doy);
    assert 0 <= mp <= 11;
    var d := CivilOfEra(era, doe);
    assert MarchMonth(d) == mp;
    assert DayOfYearOf(d) == doy;
    assert ShiftedYear(d) == yoe + era * 400;
    DivIs(ShiftedYear(d), 400, era);
    assert DayOfYear(doe) == doe - YearStart(yoe);
  }

  /** Shifting a year by whole 400-year eras keeps it leap or common. */
  lemma LeapShift(y: int, era: int)
    ensures IsLeapYear(y + era * 400) <==> IsLeapYear(y)
  {
    DivIs(y + era * 400, 4, y / 4 + 100 * era);
    DivIs(y + era * 400, 100, y / 100 + 4 * era);
    DivIs(y + era * 400, 400, y / 400 + era);
  }

  /**
   Year `yoe` of an era splits into centuries `c`, four-year cycles `f` and
   years `g`; the calendar year after it is leap only at the end of a
   four-year cycle that does not close a century, or at the end of the era.
   */
  lemma {:induction false} YearParts(yoe: int) returns (c: int, f: int, g: int)
    requires 0 <= yoe <= 399
    ensures 0 <= c <= 3 && 0 <= f <= 24 && 0 <= g <= 3 && yoe == 100 * c + 4 * f + g
    ensures YearStart(yoe) == 36_524 * c + 1461 * f + 365 * g
    ensures IsLeapYear(yoe + 1) ==> g == 3 && (f < 24 || c == 3)
  {
    c := yoe / 100;
    f := (yoe - 100 * c) / 4;
    g := yoe - 100 * c - 4 * f;
    YearStartSplit(c, f, g);
    DivIs(yoe + 1, 4, 25 * c + f + (if g == 3 then 1 else 0));
    DivIs(yoe + 1, 100, c + (if f == 24 && g == 3 then 1 else 0));
    DivIs(yoe + 1, 400, if yoe == 399 then 1 else 0);
  }

  /** The day count of a day in year `100c + 4f + g` of an era leads back to that year. */
  lemma {:induction false} YearOfEraFromParts(doe: int, c: int, f: int, g: int, doy: int)
    requires 0 <= c <= 3 && 0 <= f <= 24 && 0 <= g <= 3 && 0 <= doy <= 365
    requires doy == 365 ==> g == 3 && f < 24
    requires doe == 36_524 * c + 1461 * f + 365 * g + doy
    ensures YearOfEra(doe) == 100 * c + 4 * f + g
  {
    var delta := if 24 * c + f + 365 * g + doy >= 1460 then 1 else 0;
    DivIs(doe, 36_524, c);
    DivIs(doe, 1460, 25 * c + f + delta);
    DivIs(doe, 146_096, 0);
    var n := doe - doe / 1460 + doe / 36_524 - doe / 146_096;
    assert n == 365 * (100 * c + 4 * f + g) + doy - delta;
    DivIs(n, 365, 100 * c + 4 * f + g);
  }

  /**
   Day `doy` of year `yoe` of an era lies in the era, and the era's day count
   leads back to that year. Day 365 exists only when the year ends in a leap day.
   */
  lemma {:induction false} YearStartInverse(yoe: int, doy: int)
    requires 0 <= yoe <= 399 && 0 <= doy <= 365
    requires doy == 365 ==> IsLeapYear(yoe + 1)
    ensures 0 <= YearStart(yoe) + doy < 146_097
    ensures YearOfEra(YearStart(yoe) + doy) == yoe
  {
    var c, f, g := YearParts(yoe);
    if yoe == 399 && doy == 365 {
      LastDayOfEra();
    } else {
      YearOfEraFromParts(YearStart(yoe) + doy, c, f, g, doy);
    }
  }

  /**
   A valid date falls on a day of its year from 0 to 365, in the month its
   month index names; day 365 is the 29 February of a leap year.
   */
  lemma {:induction false} DayOfYearOfDate(d: CivilDate)
    requires ValidDate(d)
    ensures 0 <= DayOfYearOf(d) <= 365
    ensures MonthIndex(DayOfYearOf(d)) == MarchMonth(d)
    ensures DayOfYearOf(d) == 365 ==> IsLeapYear(d.year) && d.month == 2
  {
    var mp := MarchMonth(d);
    var doy := DayOfYearOf(d);
    if mp < 11 {
      MonthLength(d.year, mp);
      assert MonthStart(mp + 1) <= 337;
    } else {
      assert MonthStart(11) == 337;
    }
    DivIs(5 * doy + 2, 153, mp);
  }

  /** A valid date is day `doe` of era `era`, for the era and day its day number names. */
  lemma {:induction false} EraOfDate(d: CivilDate) returns (era: int, doe: int)
    requires ValidDate(d)
    ensures 0 <= doe < 146_097
    ensures DaysFromCivil(d) == era * 146_097 + doe - 719_468
    ensures CivilOfEra(era, doe) == d
  {
    era := ShiftedYear(d) / 400;
    var yoe := ShiftedYear(d) - era * 400;
    var doy := DayOfYearOf(d);
    DayOfYearOfDate(d);
    if doy == 365 {
      LeapShift(yoe + 1, era);
    }
    YearStartInverse(yoe, doy);
    doe := YearStart(yoe) + doy;
    assert DayOfYear(doe) == doy;
  }

  /** Every valid date is the calendar date of its day number, so no two valid dates share a day. */
  lemma {:induction false} DateRoundTrip(d: CivilDate)
    requires ValidDate(d)
    ensures CivilFromDays(DaysFromCivil(d)) == d
  {
    var era, doe := EraOfDate(d);
    CivilFromDaysInEra(DaysFromCivil(d), era, doe);
  }

  /** The calendar date of a day number is the date of its day within its era. */
  lemma CivilFromDaysInEra(z: int, era: int, doe: int)
    requires 0 <= doe < 146_097 && z == era * 146_097 + doe - 719_468
    ensures CivilFromDays(z) == CivilOfEra(era, doe)
  {
    DayNumberInEra(era, doe);
  }

  /** The day number of day `doe` of era `era` lies in that era, on that day. */
  lemma DayNumberInEra(era: int, doe: int)
    requires 0 <= doe < 146_097
    ensures Era(era * 146_097 + doe - 719_468) == era
    ensures DayOfEra(era * 146_097 + doe - 719_468) == doe
  {
    DivIs(era * 146_097 + doe, 146_097, era);
  }

  /** Every day number is the day number of its calendar date, so no two days share a date. */
  lemma {:induction false} CivilRoundTrip(z: int)
    ensures DaysFromCivil(CivilFromDays(z)) == z
  {
    EraRoundTrip(Era(z), DayOfEra(z));
  }

  /** The calendar date of an instant. */
  function DateOf(t: int): CivilDate
  {
    CivilFromDays(DayNumber(t))
  }

  /** `a` and `b` fall in the same month of the same year; the day is ignored. */
  predicate SameMonth(a: int, b: int)
  {
    DateOf(a).year == DateOf(b).year && DateOf(a).month == DateOf(b).month
  }

  /** date-fns `isToday(t)` with the current instant passed in as `now`. */
  function IsToday(t: int, now: int): (r: bool)
    ensures r <==> DayNumber(t) * MsPerDay <= now < DayNumber(t) * MsPerDay + MsPerDay
    ensures r ==> DateOf(t) == DateOf(now)
  {
    DayNumberWindow(t);
    DayNumberWindow(now);
    DayNumber(t) == DayNumber(now)
  }

  /** date-fns `isPast(t)`: strictly before the current instant. */
  function IsPast(t: int, now: int): (r: bool)
    ensures r ==> DayNumber(t) <= DayNumber(now)
    ensures DayNumber(t) < DayNumber(now) ==> r
    ensures DayNumber(t) > DayNumber(now) ==> !r
  {
    if t < now then DayNumberMonotone(t, now); true
    else DayNumberMonotone(now, t); false
  }

  /**
   The month filter of both trackers: no month selected keeps everything,
   otherwise the record's date must share the selected month and year.
   */
  function MatchesMonth(filterMonth: Option<int>, t: int): (r: bool)
    ensures filterMonth.None? ==> r
    ensures filterMonth.Some? ==>
              (r <==> DateOf(t).year == DateOf(filterMonth.value).year && DateOf(t).month == DateOf(filterMonth.value).month)
    ensures filterMonth.Some? && DayNumber(t) == DayNumber(filterMonth.value) ==> r
  {
    filterMonth.None? || SameMonth(t, filterMonth.value)
  }

  /** Two instants on the same day always pass or fail a month filter together. */
  lemma MatchesMonthIgnoresTimeOfDay(filterMonth: Option<int>, a: int, b: int)
    requires DayNumber(a) == DayNumber(b)
    ensures MatchesMonth(filterMonth, a) <==> MatchesMonth(filterMonth, b)
  {
  }

  /** 2024-06-15T00:00Z, the reference date of the classifier scenarios. */
  const June15of2024: int := 1_718_409_600_000

  lemma EpochIsNewYear1970()
    ensures DateOf(0) == CivilDate(1970, 1, 1)
  {
    assert DayNumber(0) == 0;
    assert 719_468 / 146_097 == 4;
    assert (135_080 - 135_080 / 1460 + 135_080 / 36_524 - 135_080 / 146_096) / 365 == 369;
  }

  lemma ReferenceDateIsJune15()
    ensures DateOf(June15of2024) == CivilDate(2024, 6, 15)
  {
    assert DayNumber(June15of2024) == 19_889;
    assert 739_357 / 146_097 == 5;
    assert (8872 - 8872 / 1460 + 8872 / 36_524 - 8872 / 146_096) / 365 == 24;
  }
}

=== FILE: currency_input.dfy ===
/**
 The text clean-up the currency field applies to what the user types, before
 the result is handed to `parseFloat`: drop everything but digits, commas and
 minus signs, turn commas into dots, and keep only the last dot as the
 decimal point.
 */
module CurrencyInput {
  import opened Seqs

  predicate IsDigit(c: char)
  {
    '0' <= c <= '9'
  }

  /** The characters the pattern `[^\d,-]` leaves in place. */
  predicate IsKept(c: char)
  {
    IsDigit(c) || c == ',' || c == '-'
  }

  /** The characters that survive normalisation unchanged. */
  predicate IsDigitOrMinus(c: char)
  {
    IsDigit(c) || c == '-'
  }

  predicate IsNotDot(c: char)
  {
    c != '.'
  }

  /** `replace(/,/g, ".")`. */
  function CommasToDots(s: string): (r: string)
    ensures |r| == |s|
    ensures forall i :: 0 <= i < |s| ==> r[i] == (if s[i] == ',' then '.' else s[i])
  {
    seq(|s|, i requires 0 <= i < |s| => if s[i] == ',' then '.' else s[i])
  }

  /** `lastIndexOf(c)`: the position of the last `c`, or -1 when there is none. */
  function LastIndexOf(s: string, c: char): (k: int)
    ensures -1 <= k < |s|
    ensures k == -1 <==> c !in s
    ensures k >= 0 ==> s[k] == c && c !in s[k + 1..]
  {
    if |s| == 0 then -1
    else if s[|s| - 1] == c then |s| - 1
    else
      var init := s[..|s| - 1];
      var k := LastIndexOf(init, c);
      assert s == init + [s[|s| - 1]];
      assert c in s <==> c in init;
      if k >= 0 then
        assert s[k + 1..] == init[k + 1..] + [s[|s| - 1]];
        k
      else
        k
  }

  /** The last occurrence of `c` is the one with no `c` after it. */
  lemma {:induction false} LastIndexOfSplit(x: string, c: char, y: string)
    requires c !in y
    ensures LastIndexOf(x + [c] + y, c) == |x|
    decreases |y|
  {
    var s := x + [c] + y;
    if |y| > 0 {
      assert s[|s| - 1] == y[|y| - 1];
      assert s[..|s| - 1] == x + [c] + y[..|y| - 1];
      LastIndexOfSplit(x, c, y[..|y| - 1]);
    }
  }

  /** The first two steps: `replace(/[^\d,-]/g, "")` then `replace(/,/g, ".")`. */
  function Clean(raw: string): string
  {
    CommasToDots(Filter(IsKept, raw))
  }

  /** The last two steps: drop every dot but the last one. */
  function KeepLastDot(v: string): string
  {
    var k := LastIndexOf(v, '.');
    if k != -1 then Filter(IsNotDot, v[..k]) + v[k..] else Filter(IsNotDot, v)
  }

  /** The value handed to `parseFloat`. */
  function Normalize(raw: string): (r: string)
    ensures forall i :: 0 <= i < |r| ==> IsDigitOrMinus(r[i]) || r[i] == '.'
    ensures multiset(r)['.'] <= 1
    ensures '.' in r <==> ',' in raw
    ensures Filter(IsDigitOrMinus, r) == Filter(IsDigitOrMinus, raw)
    ensures ',' in raw ==> r[LastIndexOf(r, '.') + 1..] == Filter(IsDigitOrMinus, raw[LastIndexOf(raw, ',') + 1..])
    ensures ',' !in raw ==> r == Filter(IsDigitOrMinus, raw)
  {
    NormalizeIsExpected(raw);
    ExpectedProperties(raw);
    KeepLastDot(Clean(raw))
  }

  /**
   The normalised text described from the input alone: the digits and minus
   signs before the input's last comma, a dot, and the digits and minus signs
   after it; with no comma, just the digits and minus signs.
   */
  function Expected(raw: string): string
  {
    var j := LastIndexOf(raw, ',');
    if j == -1 then Filter(IsDigitOrMinus, raw)
    else Filter(IsDigitOrMinus, raw[..j]) + ['.'] + Filter(IsDigitOrMinus, raw[j + 1..])
  }

  /** The clean-up computes exactly `Expected`. */
  lemma {:induction false} NormalizeIsExpected(raw: string)
    ensures KeepLastDot(Clean(raw)) == Expected(raw)
  {
    var j := LastIndexOf(raw, ',');
    if j == -1 {
      CleanWithoutComma(raw);
      FilterAllPass(IsNotDot, Clean(raw));
    } else {
      var a, b := raw[..j], raw[j + 1..];
      assert raw == a + [','] + b;
      CleanSplit(a, b);
      CleanWithoutComma(b);
      KeepLastDotSplit(Clean(a), Clean(b));
      DotsRemovedBeforeLastComma(a);
    }
  }

  /** A comma becomes the dot between the clean-ups of its two sides. */
  lemma {:induction false} CleanSplit(a: string, b: string)
    ensures Clean(a + [','] + b) == Clean(a) + ['.'] + Clean(b)
  {
    var fa, fb := Filter(IsKept, a), Filter(IsKept, b);
    FilterConcat(IsKept, a + [','], b);
    FilterConcat(IsKept, a, [',']);
    FilterSingleton(IsKept, ',');
    assert Filter(IsKept, a + [','] + b) == fa + [','] + fb;
    CommasToDotsSplit(fa, fb);
  }

  /** `CommasToDots` works character by character, so it splits at a comma. */
  lemma {:induction false} CommasToDotsSplit(u: string, w: string)
    ensures CommasToDots(u + [','] + w) == CommasToDots(u) + ['.'] + CommasToDots(w)
  {
    var l, r := CommasToDots(u + [','] + w), CommasToDots(u) + ['.'] + CommasToDots(w);
    assert |l| == |r|;
    forall i | 0 <= i < |l| ensures l[i] == r[i] {
      if i < |u| {
      } else if i > |u| {
        assert (u + [','] + w)[i] == w[i - |u| - 1];
      }
    }
  }

  /** With no dot after it, a dot is the one `KeepLastDot` keeps. */
  lemma {:induction false} KeepLastDotSplit(u: string, w: string)
    requires '.' !in w
    ensures KeepLastDot(u + ['.'] + w) == Filter(IsNotDot, u) + ['.'] + w
  {
    var v := u + ['.'] + w;
    LastIndexOfSplit(u, '.', w);
    assert v[..|u|] == u;
    assert v[|u|..] == ['.'] + w;
  }

  /** Without a comma, the kept characters are the digits and minus signs, and no dot appears. */
  lemma {:induction false} CleanWithoutComma(s: string)
    requires ',' !in s
    ensures Clean(s) == Filter(IsDigitOrMinus, s)
    ensures '.' !in Filter(IsDigitOrMinus, s)
  {
    if |s| > 0 {
      CleanWithoutComma(s[1..]);
      if IsKept(s[0]) {
        assert Clean(s) == [s[0]] + Clean(s[1..]);
      }
    }
  }

  /** Before the last comma, commas become dots and are then dropped with the dots. */
  lemma {:induction false} DotsRemovedBeforeLastComma(s: string)
    ensures Filter(IsNotDot, Clean(s)) == Filter(IsDigitOrMinus, s)
  {
    if |s| > 0 {
      DotsRemovedBeforeLastComma(s[1..]);
      var rest := Clean(s[1..]);
      if IsKept(s[0]) {
        assert Clean(s) == CommasToDots([s[0]]) + rest;
        FilterConcat(IsNotDot, CommasToDots([s[0]]), rest);
      }
    }
  }

  /** A dot between two runs of digits and minus signs holds no other character and no second dot. */
  lemma {:induction false} DottedShape(x: string, y: string)
    requires forall i :: 0 <= i < |x| ==> IsDigitOrMinus(x[i])
    requires forall i :: 0 <= i < |y| ==> IsDigitOrMinus(y[i])
    ensures forall i :: 0 <= i < |x + ['.'] + y| ==> IsDigitOrMinus((x + ['.'] + y)[i]) || (x + ['.'] + y)[i] == '.'
    ensures multiset(x + ['.'] + y)['.'] == 1
  {
    var r := x + ['.'] + y;
    forall i | 0 <= i < |r| ensures r[i] == (if i < |x| then x[i] else if i == |x| then '.' else y[i - |x| - 1]) {
    }
    NoDotInRun(x);
    NoDotInRun(y);
    assert multiset(r) == multiset(x) + multiset{'.'} + multiset(y);
  }

  /** A run of digits and minus signs holds no dot. */
  lemma {:induction false} NoDotInRun(x: string)
    requires forall i :: 0 <= i < |x| ==> IsDigitOrMinus(x[i])
    ensures '.' !in x
    ensures multiset(x)['.'] == 0
  {
    forall i | 0 <= i < |x| ensures x[i] != '.' {
      assert IsDigitOrMinus(x[i]);
    }
  }

  /** In a dot between two runs of digits and minus signs, the dot is the last one and only `y` follows it. */
  lemma {:induction false} DottedParts(x: string, y: string)
    requires forall i :: 0 <= i < |y| ==> IsDigitOrMinus(y[i])
    ensures LastIndexOf(x + ['.'] + y, '.') == |x|
    ensures (x + ['.'] + y)[|x| + 1..] == y
  {
    NoDotInRun(y);
    LastIndexOfSplit(x, '.', y);
    assert (x + ['.'] + y)[|x| + 1..] == y;
  }

  /** Dropping everything but digits and minus signs removes just the dot. */
  lemma {:induction false} DottedFilter(x: string, y: string)
    requires forall i :: 0 <= i < |x| ==> IsDigitOrMinus(x[i])
    requires forall i :: 0 <= i < |y| ==> IsDigitOrMinus(y[i])
    ensures Filter(IsDigitOrMinus, x + ['.'] + y) == x + y
  {
    var xd := x + ['.'];
    assert Filter(IsDigitOrMinus, xd) == x by {
      FilterConcat(IsDigitOrMinus, x, ['.']);
      FilterAllPass(IsDigitOrMinus, x);
      FilterSingleton(IsDigitOrMinus, '.');
    }
    FilterConcat(IsDigitOrMinus, xd, y);
    FilterAllPass(IsDigitOrMinus, y);
  }

  /** The properties of `Expected` that `Normalize` promises. */
  lemma {:induction false} ExpectedProperties(raw: string)
    ensures forall i :: 0 <= i < |Expected(raw)| ==> IsDigitOrMinus(Expected(raw)[i]) || Expected(raw)[i] == '.'
    ensures multiset(Expected(raw))['.'] <= 1
    ensures '.' in Expected(raw) <==> ',' in raw
    ensures Filter(IsDigitOrMinus, Expected(raw)) == Filter(IsDigitOrMinus, raw)
    ensures ',' in raw ==>
      Expected(raw)[LastIndexOf(Expected(raw), '.') + 1..] == Filter(IsDigitOrMinus, raw[LastIndexOf(raw, ',') + 1..])
    ensures ',' !in raw ==> Expected(raw) == Filter(IsDigitOrMinus, raw)
  {
    if ',' in raw {
      ExpectedWithComma(raw);
    } else {
      ExpectedWithoutComma(raw);
    }
  }

  /** `Expected` on an input with no comma: its digits and minus signs, with no dot. */
  lemma {:induction false} ExpectedWithoutComma(raw: string)
    requires ',' !in raw
    ensures forall i :: 0 <= i < |Expected(raw)| ==> IsDigitOrMinus(Expected(raw)[i]) || Expected(raw)[i] == '.'
    ensures multiset(Expected(raw))['.'] <= 1
    ensures '.' !in Expected(raw)
    ensures Filter(IsDigitOrMinus, Expected(raw)) == Filter(IsDigitOrMinus, raw)
    ensures Expected(raw) == Filter(IsDigitOrMinus, raw)
  {
    var e := Filter(IsDigitOrMinus, raw);
    assert Expected(raw) == e;
    FilterIdempotent(IsDigitOrMinus, raw);
    CleanWithoutComma(raw);
    NoDotInRun(e);
  }

  /** `Expected` on an input with a comma: a single dot, followed by what came after the last comma. */
  lemma {:induction false} ExpectedWithComma(raw: string)
    requires ',' in raw
    ensures forall i :: 0 <= i < |Expected(raw)| ==> IsDigitOrMinus(Expected(raw)[i]) || Expected(raw)[i] == '.'
    ensures multiset(Expected(raw))['.'] <= 1
    ensures '.' in Expected(raw)
    ensures Filter(IsDigitOrMinus, Expected(raw)) == Filter(IsDigitOrMinus, raw)
    ensures Expected(raw)[LastIndexOf(Expected(raw), '.') + 1..] == Filter(IsDigitOrMinus, raw[LastIndexOf(raw, ',') + 1..])
  {
    var j := LastIndexOf(raw, ',');
    var x, y := Filter(IsDigitOrMinus, raw[..j]), Filter(IsDigitOrMinus, raw[j + 1..]);
    var e := x + ['.'] + y;
    assert Expected(raw) == e;
    DottedText(e, x, y);
    assert Expected(raw)[LastIndexOf(Expected(raw), '.') + 1..] == y;
    assert Filter(IsDigitOrMinus, Expected(raw)) == x + y;
    FilterAroundComma(raw, j);
  }

  /**
   In `e`, a dot between two runs of digits and minus signs: the dot is the
   only one and the last one, and dropping it leaves the two runs.
   */
  lemma {:induction false} DottedText(e: string, x: string, y: string)
    requires e == x + ['.'] + y
    requires forall i :: 0 <= i < |x| ==> IsDigitOrMinus(x[i])
    requires forall i :: 0 <= i < |y| ==> IsDigitOrMinus(y[i])
    ensures forall i :: 0 <= i < |e| ==> IsDigitOrMinus(e[i]) || e[i] == '.'
    ensures multiset(e)['.'] <= 1
    ensures '.' in e
    ensures LastIndexOf(e, '.') == |x|
    ensures e[|x| + 1..] == y
    ensures Filter(IsDigitOrMinus, e) == x + y
  {
    DottedShape(x, y);
    DottedParts(x, y);
    DottedFilter(x, y);
    assert e[|x|] == '.';
  }

  /** Dropping everything but digits and minus signs also drops the comma at `j`. */
  lemma {:induction false} FilterAroundComma(raw: string, j: nat)
    requires j < |raw| && raw[j] == ','
    ensures Filter(IsDigitOrMinus, raw) == Filter(IsDigitOrMinus, raw[..j]) + Filter(IsDigitOrMinus, raw[j + 1..])
  {
    FilterSplitAt(IsDigitOrMinus, raw, j);
    FilterSingleton(IsDigitOrMinus, ',');
    assert Filter(IsDigitOrMinus, raw[..j]) + [] == Filter(IsDigitOrMinus, raw[..j]);
  }
}

=== FILE: dashboard.dfy ===
/**
 The dashboard's computed panels: its own three-tag due-status classifier, the
 "upcoming expenses" list (pending expenses by due date, first three), the
 recent incomes with their tithe, and the last three months of the monthly
 comparison with their net.
 */
module Dashboard {
  import opened Seqs
  import opened Calendar
  import ExpenseDueStatus
  import IncomeView

  /** The dashboard's expense shape: payment is a `status` text, not a flag. */
  datatype DashboardExpense = DashboardExpense(
    id: int,
    description: string,
    amount: real,
    date: int,
    dueDate: int,
    status: string,
    category: string)

  datatype MonthRow = MonthRow(month: string, income: real, expenses: real)

  // ---------------------------------------------------------------------------
  // The three-tag classifier

  datatype DueStatus = Overdue | DueSoon | Upcoming

  /**
   The dashboard's classifier: only the rounded-up number of days between now
   and the due date counts. Overdue means at least one whole day late; due-soon
   covers the rest up to three days ahead.
   */
  function GetDueStatus(dueDate: int, now: int): (r: DueStatus)
    ensures r == Overdue <==> dueDate <= now - MsPerDay
    ensures r == DueSoon <==> now - MsPerDay < dueDate <= now + 3 * MsPerDay
    ensures r == Upcoming <==> now + 3 * MsPerDay < dueDate
  {
    var daysUntilDue := CeilDays(dueDate - now);
    if daysUntilDue < 0 then Overdue
    else if daysUntilDue <= 3 then DueSoon
    else Upcoming
  }

  /** In terms of the rounded-up day count, the three tags split it at 0 and 3. */
  lemma DueStatusByDayCount(dueDate: int, now: int)
    ensures GetDueStatus(dueDate, now) == Overdue <==> CeilDays(dueDate - now) < 0
    ensures GetDueStatus(dueDate, now) == DueSoon <==> 0 <= CeilDays(dueDate - now) <= 3
    ensures GetDueStatus(dueDate, now) == Upcoming <==> CeilDays(dueDate - now) > 3
  {
  }

  /**
   Where the two classifiers agree: a dashboard "overdue" is a tracker
   "overdue", and the tracker's "due soon" and "upcoming" are the dashboard's.
   */
  lemma ClassifiersAgree(dueDate: int, now: int)
    ensures GetDueStatus(dueDate, now) == Overdue ==>
              ExpenseDueStatus.GetDueStatus(dueDate, false, now) == ExpenseDueStatus.Overdue
    ensures ExpenseDueStatus.GetDueStatus(dueDate, false, now) == ExpenseDueStatus.DueSoon ==>
              GetDueStatus(dueDate, now) == DueSoon
    ensures ExpenseDueStatus.GetDueStatus(dueDate, false, now) == ExpenseDueStatus.Upcoming ==>
              GetDueStatus(dueDate, now) == Upcoming
  {
    if dueDate <= now - MsPerDay {
      DayNumberMonotone(dueDate + MsPerDay, now);
      assert DayNumber(dueDate + MsPerDay) == DayNumber(dueDate) + 1;
    }
  }

  /**
   Where they differ: an expense due one hour before midnight of today is
   "overdue" on the tracker but "due soon" on the dashboard.
   */
  lemma ClassifiersDifferBeforeToday()
    ensures ExpenseDueStatus.GetDueStatus(MsPerDay - 3_600_000, false, MsPerDay) == ExpenseDueStatus.Overdue
    ensures GetDueStatus(MsPerDay - 3_600_000, MsPerDay) == DueSoon
  {
  }

  // ---------------------------------------------------------------------------
  // Upcoming expenses

  predicate IsPending(e: DashboardExpense)
  {
    e.status == "pending"
  }

  /** The expenses whose status is "pending", in their original order. */
  function PendingExpenses(expenses: seq<DashboardExpense>): (r: seq<DashboardExpense>)
    ensures forall i :: 0 <= i < |r| ==> r[i].status == "pending"
    ensures forall e :: e in r ==> e.status == "pending"
    ensures forall i :: 0 <= i < |expenses| && expenses[i].status == "pending" ==> expenses[i] in r
    ensures IsSubsequence(r, expenses)
    ensures forall e :: multiset(r)[e] == if e.status == "pending" then multiset(expenses)[e] else 0
  {
    FilterSelects(IsPending, expenses);
    FilterMultiplicity(IsPending, expenses);
    Filter(IsPending, expenses)
  }

  ghost predicate SortedByDueDate(s: seq<DashboardExpense>)
  {
    forall i, j :: 0 <= i < j < |s| ==> s[i].dueDate <= s[j].dueDate
  }

  /** Insert `e` before the first element due no earlier than it. */
  function InsertByDueDate(e: DashboardExpense, s: seq<DashboardExpense>): (r: seq<DashboardExpense>)
    requires SortedByDueDate(s)
    ensures SortedByDueDate(r)
    ensures multiset(r) == multiset(s) + multiset{e}
    ensures |r| == |s| + 1
  {
    if |s| == 0 || e.dueDate <= s[0].dueDate then
      [e] + s
    else
      var rest := InsertByDueDate(e, s[1..]);
      InsertBehindHead(e, s, rest);
      [s[0]] + rest
  }

  /** The head of `s`, due before `e`, stays in front of `e` inserted into the rest of `s`. */
  lemma {:induction false} InsertBehindHead(e: DashboardExpense, s: seq<DashboardExpense>, rest: seq<DashboardExpense>)
    requires |s| > 0 && SortedByDueDate(s) && s[0].dueDate < e.dueDate
    requires SortedByDueDate(rest) && multiset(rest) == multiset(s[1..]) + multiset{e}
    ensures SortedByDueDate([s[0]] + rest)
    ensures multiset([s[0]] + rest) == multiset(s) + multiset{e}
  {
    assert s == [s[0]] + s[1..];
    forall k | 0 <= k < |rest| ensures s[0].dueDate <= rest[k].dueDate {
      assert rest[k] in multiset(rest);
      if rest[k] != e {
        assert rest[k] in s[1..];
      }
    }
  }

  /** Selects the expenses due at instant `t`. */
  function DueAt(t: int): DashboardExpense -> bool
  {
    (e: DashboardExpense) => e.dueDate == t
  }

  /**
   Inserting `e` puts it in front of every element due at the same instant,
   and keeps those elements in their order.
   */
  lemma {:induction false} InsertStable(e: DashboardExpense, s: seq<DashboardExpense>, t: int)
    requires SortedByDueDate(s)
    ensures Filter(DueAt(t), InsertByDueDate(e, s)) == Filter(DueAt(t), [e]) + Filter(DueAt(t), s)
  {
    var p := DueAt(t);
    if |s| == 0 || e.dueDate <= s[0].dueDate {
      FilterConcat(p, [e], s);
    } else {
      var tail := s[1..];
      assert SortedByDueDate(tail);
      var rest := InsertByDueDate(e, tail);
      assert InsertByDueDate(e, s) == [s[0]] + rest;
      InsertStable(e, tail, t);
      FilterConcat(p, [s[0]], rest);
      FilterHeadTail(p, s);
      NoTieWithEarlier(s[0], e, t);
      SwapFront(Filter(p, [s[0]]), Filter(p, [e]), Filter(p, tail));
    }
  }

  /** An expense due before `e` is never due at the same instant as `e`. */
  lemma NoTieWithEarlier(h: DashboardExpense, e: DashboardExpense, t: int)
    requires h.dueDate < e.dueDate
    ensures Filter(DueAt(t), [h]) + Filter(DueAt(t), [e]) == Filter(DueAt(t), [e]) + Filter(DueAt(t), [h])
  {
    FilterSingleton(DueAt(t), h);
    FilterSingleton(DueAt(t), e);
  }

  /**
   If `sorted` holds the ties of `s` in their order, inserting `e` into it
   holds the ties of `[e] + s` in theirs.
   */
  lemma InsertKeepsTies(e: DashboardExpense, s: seq<DashboardExpense>, sorted: seq<DashboardExpense>)
    requires SortedByDueDate(sorted)
    requires forall t :: Filter(DueAt(t), sorted) == Filter(DueAt(t), s)
    ensures forall t :: Filter(DueAt(t), InsertByDueDate(e, sorted)) == Filter(DueAt(t), [e] + s)
  {
    forall t ensures Filter(DueAt(t), InsertByDueDate(e, sorted)) == Filter(DueAt(t), [e] + s) {
      InsertStable(e, sorted, t);
      FilterConcat(DueAt(t), [e], s);
    }
  }

  /**
   `sort((a, b) => a.dueDate - b.dueDate)`: the same expenses, ascending by due
   date. The sort is stable: expenses due at the same instant keep their order.
   */
  function SortByDueDate(s: seq<DashboardExpense>): (r: seq<DashboardExpense>)
    ensures SortedByDueDate(r)
    ensures multiset(r) == multiset(s)
    ensures |r| == |s|
    ensures forall t :: Filter(DueAt(t), r) == Filter(DueAt(t), s)
  {
    if |s| == 0 then []
    else
      assert s == [s[0]] + s[1..];
      InsertKeepsTies(s[0], s[1..], SortByDueDate(s[1..]));
      InsertByDueDate(s[0], SortByDueDate(s[1..]))
  }

  /** The number of cards in the "upcoming expenses" panel. */
  const UpcomingCount: nat := 3

  /** The "upcoming expenses" panel: pending, sorted by due date, first three. */
  function UpcomingExpenses(expenses: seq<DashboardExpense>): (r: seq<DashboardExpense>)
    ensures |r| == Min(UpcomingCount, |PendingExpenses(expenses)|)
    ensures forall i :: 0 <= i < |r| ==> r[i].status == "pending"
    ensures SortedByDueDate(r)
    ensures multiset(r) <= multiset(PendingExpenses(expenses))
    ensures forall i, e :: 0 <= i < |r| && multiset(r)[e] < multiset(PendingExpenses(expenses))[e] ==> r[i].dueDate <= e.dueDate
    ensures forall t :: Filter(DueAt(t), r) <= Filter(DueAt(t), PendingExpenses(expenses))
  {
    var pending := PendingExpenses(expenses);
    var sorted := SortByDueDate(pending);
    var r := sorted[..Min(UpcomingCount, |sorted|)];
    PrefixOfSorted(sorted, pending, |r|);
    DrawnFromPending(r, expenses);
    TiesInListOrder(sorted, pending, |r|);
    r
  }

  /**
   A prefix of a stable sorting of `s` shows the expenses due at each instant
   as a prefix of those in `s`: ties at the cut go to the ones listed first.
   */
  lemma TiesInListOrder(sorted: seq<DashboardExpense>, s: seq<DashboardExpense>, k: nat)
    requires k <= |sorted|
    requires forall t :: Filter(DueAt(t), sorted) == Filter(DueAt(t), s)
    ensures forall t :: Filter(DueAt(t), sorted[..k]) <= Filter(DueAt(t), s)
  {
    forall t ensures Filter(DueAt(t), sorted[..k]) <= Filter(DueAt(t), s) {
      FilterOfPrefix(DueAt(t), sorted, k);
    }
  }

  /**
   When every pending expense is due at the same instant, the panel is a prefix
   of the pending list: its first three records, in list order.
   */
  lemma AllDueTogether(expenses: seq<DashboardExpense>, t: int)
    requires forall i :: 0 <= i < |PendingExpenses(expenses)| ==> PendingExpenses(expenses)[i].dueDate == t
    ensures UpcomingExpenses(expenses) <= PendingExpenses(expenses)
  {
    TiedPrefix(UpcomingExpenses(expenses), PendingExpenses(expenses), t);
  }

  /**
   A selection from `s`, all due at `t`, that lists the expenses due at `t` as
   a prefix of those of `s`, is a prefix of `s`.
   */
  lemma TiedPrefix(r: seq<DashboardExpense>, s: seq<DashboardExpense>, t: int)
    requires forall i :: 0 <= i < |s| ==> s[i].dueDate == t
    requires multiset(r) <= multiset(s)
    requires Filter(DueAt(t), r) <= Filter(DueAt(t), s)
    ensures r <= s
  {
    var p := DueAt(t);
    forall i | 0 <= i < |r| ensures p(r[i]) {
      assert r[i] in multiset(s);
    }
    FilterAllPass(p, r);
    FilterAllPass(p, s);
  }

  /** Whatever is drawn from the pending records is pending. */
  lemma DrawnFromPending(r: seq<DashboardExpense>, expenses: seq<DashboardExpense>)
    requires forall e :: e in r ==> e in PendingExpenses(expenses)
    ensures forall i :: 0 <= i < |r| ==> r[i].status == "pending"
  {
    forall i | 0 <= i < |r| ensures r[i].status == "pending" {
      assert r[i] in r;
    }
  }

  /**
   A prefix of a sorting of `s` draws from `s`, is sorted, and is due no later
   than any copy of a record of `s` it leaves out.
   */
  lemma {:induction false} PrefixOfSorted(sorted: seq<DashboardExpense>, s: seq<DashboardExpense>, k: nat)
    requires SortedByDueDate(sorted) && multiset(sorted) == multiset(s)
    requires k <= |sorted|
    ensures SortedByDueDate(sorted[..k])
    ensures multiset(sorted[..k]) <= multiset(s)
    ensures forall i, e :: 0 <= i < k && multiset(sorted[..k])[e] < multiset(s)[e] ==> sorted[i].dueDate <= e.dueDate
    ensures forall e :: e in sorted[..k] ==> e in s
  {
    assert sorted == sorted[..k] + sorted[k..];
    assert multiset(sorted) == multiset(sorted[..k]) + multiset(sorted[k..]);
    forall e | e in sorted[..k] ensures e in s {
      assert e in multiset(sorted);
    }
    forall i, e | 0 <= i < k && multiset(sorted[..k])[e] < multiset(s)[e] ensures sorted[i].dueDate <= e.dueDate {
      assert e in multiset(sorted[k..]);
      var j :| 0 <= j < |sorted[k..]| && sorted[k..][j] == e;
      assert sorted[k + j] == e;
    }
  }

  /** The "no pending expenses" card is shown when the pending subset is empty. */
  predicate ShowsNoPendingMessage(expenses: seq<DashboardExpense>)
  {
    |PendingExpenses(expenses)| == 0
  }

  /** The "no pending expenses" card appears exactly when the upcoming panel is empty. */
  lemma {:induction false} NoPendingMessageIffPanelEmpty(expenses: seq<DashboardExpense>)
    ensures ShowsNoPendingMessage(expenses) <==> UpcomingExpenses(expenses) == []
  {
  }

  /** An expense that is not pending never reaches the upcoming panel. */
  lemma {:induction false} PaidNeverUpcoming(expenses: seq<DashboardExpense>, e: DashboardExpense)
    requires e.status != "pending"
    ensures e !in UpcomingExpenses(expenses)
  {
  }

  // ---------------------------------------------------------------------------
  // Tithe and recent incomes

  /** The tithe shown under an income: a tenth of its amount. */
  function Tithe(amount: real): (t: real)
    ensures 10.0 * t == amount
    ensures amount >= 0.0 ==> 0.0 <= t <= amount
  {
    amount * 0.1
  }

  function IncomeAmount(income: IncomeView.Income): real
  {
    income.amount
  }

  function IncomeTithe(income: IncomeView.Income): real
  {
    Tithe(income.amount)
  }

  /** The tithes of a list of incomes add up to the tithe of their total. */
  lemma {:induction false} TitheOfTotal(incomes: seq<IncomeView.Income>)
    ensures Sum(IncomeTithe, incomes) == Tithe(Sum(IncomeAmount, incomes))
  {
    if |incomes| > 0 {
      TitheOfTotal(incomes[1..]);
    }
  }

  /** An income card: the income and the tithe shown under it. */
  datatype IncomeCard = IncomeCard(income: IncomeView.Income, tithe: real)

  /** The number of cards in the "recent incomes" panel. */
  const RecentCount: nat := 3

  /** The "recent incomes" panel: the first three incomes, each with its tithe. */
  function RecentIncomes(incomes: seq<IncomeView.Income>): (r: seq<IncomeCard>)
    ensures |r| == Min(RecentCount, |incomes|)
    ensures forall i :: 0 <= i < |r| ==> r[i].income == incomes[i] && 10.0 * r[i].tithe == incomes[i].amount
    ensures r == [] <==> incomes == []
  {
    var n := Min(RecentCount, |incomes|);
    seq(n, i requires 0 <= i < n => IncomeCard(incomes[i], Tithe(incomes[i].amount)))
  }

  // ---------------------------------------------------------------------------
  // Monthly comparison

  /** One row of the comparison: the month, its two sums, and the net shown beside it. */
  datatype MonthNet = MonthNet(month: string, income: real, expenses: real, net: real)

  /** The number of months the comparison shows. */
  const ComparedMonths: nat := 3

  /** `slice(-3)` of the months, each with net = income - expenses. */
  function MonthlyComparison(rows: seq<MonthRow>): (r: seq<MonthNet>)
    ensures |r| == Min(ComparedMonths, |rows|)
    ensures forall i :: 0 <= i < |r| ==>
              var row := rows[|rows| - |r| + i];
              r[i].month == row.month && r[i].income == row.income && r[i].expenses == row.expenses
    ensures forall i :: 0 <= i < |r| ==> r[i].net + r[i].expenses == r[i].income
  {
    var n := Min(ComparedMonths, |rows|);
    var start := |rows| - n;
    seq(n, i requires 0 <= i < n =>
      var row := rows[start + i];
      MonthNet(row.month, row.income, row.expenses, row.income - row.expenses))
  }

  /** With three months or fewer the comparison shows them all, in order. */
  lemma {:induction false} ShortHistoryShownWhole(rows: seq<MonthRow>)
    requires |rows| <= 3
    ensures |MonthlyComparison(rows)| == |rows|
    ensures forall i :: 0 <= i < |rows| ==> MonthlyComparison(rows)[i].month == rows[i].month
  {
    var r := MonthlyComparison(rows);
    assert |r| == |rows|;
    forall i | 0 <= i < |rows| ensures r[i].month == rows[i].month {
      assert |rows| - |r| + i == i;
    }
  }
}

=== FILE: expense_due_status.dfy ===
/**
 The five-tag due-status badge of the expense tracker. "Now" is a parameter:
 the instant the list is rendered.
 */
module ExpenseDueStatus {
  import opened Calendar

  datatype DueStatus = Paid | Overdue | DueToday | DueSoon | Upcoming

  /**
   The tracker's classifier, checked in order: paid; past and not today;
   today; at most three days ahead (rounded up); otherwise upcoming.
   */
  function GetDueStatus(dueDate: int, isPaid: bool, now: int): (r: DueStatus)
    ensures r == Paid <==> isPaid
    ensures r == Overdue <==> !isPaid && DayNumber(dueDate) < DayNumber(now)
    ensures r == DueToday <==> !isPaid && DayNumber(dueDate) == DayNumber(now)
    ensures r == DueSoon <==> !isPaid && DayNumber(dueDate) > DayNumber(now) && CeilDays(dueDate - now) <= 3
    ensures r == Upcoming <==> !isPaid && DayNumber(dueDate) > DayNumber(now) && CeilDays(dueDate - now) > 3
    ensures r == DueSoon ==> 1 <= CeilDays(dueDate - now) <= 3
  {
    DayOrderMatchesInstantOrder(dueDate, now);
    if isPaid then Paid
    else if IsPast(dueDate, now) && !IsToday(dueDate, now) then Overdue
    else if IsToday(dueDate, now) then DueToday
    else if CeilDays(dueDate - now) <= 3 then DueSoon
    else Upcoming
  }

  /** On different days, the earlier day holds the earlier instant. */
  lemma DayOrderMatchesInstantOrder(a: int, b: int)
    ensures DayNumber(a) < DayNumber(b) ==> a < b
    ensures a < b ==> DayNumber(a) <= DayNumber(b)
  {
    if a < b {
      DayNumberMonotone(a, b);
    } else {
      DayNumberMonotone(b, a);
    }
  }

  /** An unpaid expense due today is never overdue, whatever the time of day. */
  lemma DueTodayIsNeverOverdue(dueDate: int, now: int)
    requires IsToday(dueDate, now)
    ensures GetDueStatus(dueDate, false, now) == DueToday
  {
  }

  /** The classifier scenarios around the reference date 2024-06-15T00:00Z. */
  lemma ReferenceScenarios(dueDate: int)
    ensures GetDueStatus(June15of2024 - 5 * MsPerDay, false, June15of2024) == Overdue
    ensures GetDueStatus(June15of2024, false, June15of2024) == DueToday
    ensures GetDueStatus(June15of2024 + 2 * MsPerDay, false, June15of2024) == DueSoon
    ensures GetDueStatus(June15of2024 + 16 * MsPerDay, false, June15of2024) == Upcoming
    ensures GetDueStatus(dueDate, true, June15of2024) == Paid
  {
  }
}

=== FILE: expense_store.dfy ===
/**
 The expense record store of the expense tracker: the ordered list of expenses
 and the four ways the tracker changes it — save as an addition, save as an
 update, delete and toggle-paid. The React state around it is replaced by a
 value that goes in and a value that comes out.
 */
module ExpenseStore {
  import opened Seqs

  /** One expense. `date` and `dueDate` are instants in epoch milliseconds. */
  datatype Expense = Expense(
    id: int,
    description: string,
    amount: real,
    date: int,
    dueDate: int,
    category: string,
    isPaid: bool,
    isRecurring: bool)

  /**
   The contents of the add/edit dialog. The two date pickers may be unset;
   `editing` is the expense the dialog was opened on, or `None` when it adds.
   */
  datatype ExpenseForm = ExpenseForm(
    editing: Option<Expense>,
    description: string,
    amount: real,
    date: Option<int>,
    dueDate: Option<int>,
    category: string,
    isPaid: bool,
    isRecurring: bool)

  /** The result of the save action: the new list, or the one validation failure. */
  datatype SaveOutcome = Saved(expenses: seq<Expense>) | MissingRequiredField

  /** A save that fails validation leaves the list as it was. */
  function StoreAfter(expenses: seq<Expense>, outcome: SaveOutcome): seq<Expense>
  {
    if outcome.Saved? then outcome.expenses else expenses
  }

  /**
   The required-field check of the save action: a non-empty description, a
   positive amount, both dates set and a non-empty category.
   */
  predicate IsComplete(form: ExpenseForm)
  {
    form.description != "" && form.amount > 0.0 && form.date.Some? && form.dueDate.Some? && form.category != ""
  }

  /** The record the form describes, under the given id. */
  function FromForm(id: int, form: ExpenseForm): (e: Expense)
    requires IsComplete(form)
    ensures e.id == id && e.amount > 0.0 && e.description != "" && e.category != ""
  {
    Expense(id, form.description, form.amount, form.date.value, form.dueDate.value,
            form.category, form.isPaid, form.isRecurring)
  }

  /** The largest id in the list, or 0 (`Math.max(0, ...ids)`). */
  function MaxId(expenses: seq<Expense>): (m: int)
    ensures m >= 0
    ensures forall i :: 0 <= i < |expenses| ==> expenses[i].id <= m
    ensures m == 0 || exists i :: 0 <= i < |expenses| && expenses[i].id == m
  {
    if |expenses| == 0 then 0
    else
      var rest := MaxId(expenses[1..]);
      var m := if expenses[0].id > rest then expenses[0].id else rest;
      assert rest != 0 ==> exists i :: 1 <= i < |expenses| && expenses[i].id == rest by {
        if rest != 0 {
          var j :| 0 <= j < |expenses[1..]| && expenses[1..][j].id == rest;
          assert expenses[j + 1].id == rest;
        }
      }
      m
  }

  /** The id a newly added expense receives: one more than the largest id, and at least 1. */
  function NextId(expenses: seq<Expense>): (id: int)
    ensures id >= 1
    ensures forall i :: 0 <= i < |expenses| ==> expenses[i].id < id
  {
    MaxId(expenses) + 1
  }

  /** No two expenses share an id. */
  ghost predicate UniqueIds(expenses: seq<Expense>)
  {
    forall i, j :: 0 <= i < |expenses| && 0 <= j < |expenses| && i != j ==> expenses[i].id != expenses[j].id
  }

  /** Some expense in the list has the given id. */
  predicate HasId(expenses: seq<Expense>, id: int)
  {
    exists i :: 0 <= i < |expenses| && expenses[i].id == id
  }

  /**
   The update branch of the save action: every expense whose id is the edited
   one takes the form's fields and keeps its id.
   */
  function Update(expenses: seq<Expense>, id: int, form: ExpenseForm): (r: seq<Expense>)
    requires IsComplete(form)
    ensures |r| == |expenses|
    ensures forall i :: 0 <= i < |r| ==> r[i].id == expenses[i].id
    ensures forall i :: 0 <= i < |r| && expenses[i].id == id ==> r[i] == FromForm(id, form)
    ensures forall i :: 0 <= i < |r| && expenses[i].id != id ==> r[i] == expenses[i]
    ensures !HasId(expenses, id) ==> r == expenses
  {
    seq(|expenses|, i requires 0 <= i < |expenses| =>
      if expenses[i].id == id then FromForm(expenses[i].id, form) else expenses[i])
  }

  /** The add branch of the save action: the new expense goes at the end under a fresh id. */
  function Add(expenses: seq<Expense>, form: ExpenseForm): (r: seq<Expense>)
    requires IsComplete(form)
    ensures |r| == |expenses| + 1
    ensures r[..|expenses|] == expenses
    ensures r[|expenses|] == FromForm(NextId(expenses), form)
    ensures !HasId(expenses, r[|expenses|].id)
  {
    expenses + [FromForm(NextId(expenses), form)]
  }

  /**
   The save action: validation first, then an update when the dialog was
   opened on an expense and an addition otherwise.
   */
  function Save(expenses: seq<Expense>, form: ExpenseForm): (o: SaveOutcome)
    ensures o.MissingRequiredField? <==> !IsComplete(form)
    ensures o.Saved? && form.editing.Some? ==> o.expenses == Update(expenses, form.editing.value.id, form)
    ensures o.Saved? && form.editing.None? ==> o.expenses == Add(expenses, form)
  {
    if !IsComplete(form) then MissingRequiredField
    else if form.editing.Some? then Saved(Update(expenses, form.editing.value.id, form))
    else Saved(Add(expenses, form))
  }

  /** The records whose id is not `id`. */
  function ExceptId(id: int): Expense -> bool
  {
    (e: Expense) => e.id != id
  }

  /** The delete action: drop every expense with the given id. */
  function Delete(expenses: seq<Expense>, id: int): (r: seq<Expense>)
    ensures !HasId(r, id)
    ensures forall i :: 0 <= i < |expenses| && expenses[i].id != id ==> expenses[i] in r
    ensures forall e :: e in r ==> e in expenses
    ensures IsSubsequence(r, expenses)
    ensures forall e :: multiset(r)[e] == if e.id != id then multiset(expenses)[e] else 0
    ensures !HasId(expenses, id) ==> r == expenses
  {
    FilterSelects(ExceptId(id), expenses);
    FilterMultiplicity(ExceptId(id), expenses);
    var r := Filter(ExceptId(id), expenses);
    if !HasId(expenses, id) then
      FilterAllPass(ExceptId(id), expenses);
      r
    else r
  }

  /** The toggle-paid action: flip `isPaid` on the expense with the given id. */
  function TogglePaid(expenses: seq<Expense>, id: int): (r: seq<Expense>)
    ensures |r| == |expenses|
    ensures forall i :: 0 <= i < |r| ==> (r[i].isPaid != expenses[i].isPaid <==> expenses[i].id == id)
    ensures forall i :: 0 <= i < |r| ==> r[i].(isPaid := expenses[i].isPaid) == expenses[i]
  {
    seq(|expenses|, i requires 0 <= i < |expenses| =>
      if expenses[i].id == id then expenses[i].(isPaid := !expenses[i].isPaid) else expenses[i])
  }

  /** Toggling the same expense twice restores the list. */
  lemma {:induction false} TogglePaidTwice(expenses: seq<Expense>, id: int)
    ensures TogglePaid(TogglePaid(expenses, id), id) == expenses
  {
  }

  /** Deleting the id an addition just assigned restores the list. */
  lemma {:induction false} AddThenDelete(expenses: seq<Expense>, form: ExpenseForm)
    requires IsComplete(form)
    ensures Delete(Add(expenses, form), NextId(expenses)) == expenses
  {
    var id := NextId(expenses);
    var added := Add(expenses, form);
    assert added == expenses + [FromForm(id, form)];
    FilterConcat(ExceptId(id), expenses, [FromForm(id, form)]);
    FilterAllPass(ExceptId(id), expenses);
    assert Filter(ExceptId(id), [FromForm(id, form)]) == [];
  }

  /** Every store action, as the tracker's buttons trigger it. */
  datatype Action = SaveForm(form: ExpenseForm) | DeleteId(id: int) | TogglePaidId(id: int)

  /** The list after one action. */
  function Step(expenses: seq<Expense>, a: Action): seq<Expense>
  {
    match a
    case SaveForm(form) => StoreAfter(expenses, Save(expenses, form))
    case DeleteId(id) => Delete(expenses, id)
    case TogglePaidId(id) => TogglePaid(expenses, id)
  }

  /** The list after a sequence of actions, applied in order. */
  function Run(expenses: seq<Expense>, actions: seq<Action>): seq<Expense>
    decreases |actions|
  {
    if |actions| == 0 then expenses else Run(Step(expenses, actions[0]), actions[1..])
  }

  /** A save that fails validation changes nothing and assigns no id. */
  lemma {:induction false} IncompleteSaveKeepsStore(expenses: seq<Expense>, form: ExpenseForm)
    requires form.description == "" || form.amount <= 0.0 || form.date.None? || form.dueDate.None? || form.category == ""
    ensures Save(expenses, form) == MissingRequiredField
    ensures Step(expenses, SaveForm(form)) == expenses
  {
  }

  /** Every action keeps the ids unique. */
  lemma {:induction false} StepKeepsIdsUnique(expenses: seq<Expense>, a: Action)
    requires UniqueIds(expenses)
    ensures UniqueIds(Step(expenses, a))
  {
    match a
    case SaveForm(form) =>
    case DeleteId(id) =>
      var r := Delete(expenses, id);
      SubsequenceKeepsIdsUnique(r, expenses);
    case TogglePaidId(id) =>
  }

  /** A subsequence of a list with unique ids has unique ids. */
  lemma {:induction false} SubsequenceKeepsIdsUnique(sub: seq<Expense>, s: seq<Expense>)
    requires IsSubsequence(sub, s)
    requires UniqueIds(s)
    ensures UniqueIds(sub)
    decreases |s|
  {
    if |sub| > 0 && |s| > 0 {
      assert UniqueIds(s[1..]) by {
        forall i, j | 0 <= i < |s[1..]| && 0 <= j < |s[1..]| && i != j
          ensures s[1..][i].id != s[1..][j].id
        {
          assert s[1..][i] == s[i + 1] && s[1..][j] == s[j + 1];
        }
      }
      if sub[0] == s[0] && IsSubsequence(sub[1..], s[1..]) {
        SubsequenceKeepsIdsUnique(sub[1..], s[1..]);
        SubsequenceMembers(sub[1..], s[1..]);
        forall k | 0 < k < |sub| ensures sub[k].id != sub[0].id {
          assert sub[k] == sub[1..][k - 1];
          assert sub[k] in s[1..];
          var m :| 0 <= m < |s[1..]| && s[1..][m] == sub[k];
          assert s[m + 1] == sub[k];
        }
      } else {
        SubsequenceKeepsIdsUnique(sub, s[1..]);
      }
    }
  }

  /** Every element of a subsequence is an element of the whole. */
  lemma {:induction false} SubsequenceMembers<T>(sub: seq<T>, s: seq<T>)
    requires IsSubsequence(sub, s)
    ensures forall x :: x in sub ==> x in s
    decreases |s|
  {
    if |sub| > 0 && |s| > 0 {
      if sub[0] == s[0] && IsSubsequence(sub[1..], s[1..]) {
        SubsequenceMembers(sub[1..], s[1..]);
        assert forall x :: x in sub ==> x == sub[0] || x in sub[1..];
      } else {
        SubsequenceMembers(sub, s[1..]);
      }
    }
  }

  /** Ids stay unique through any sequence of saves, deletes and toggles. */
  lemma {:induction false} RunKeepsIdsUnique(expenses: seq<Expense>, actions: seq<Action>)
    requires UniqueIds(expenses)
    ensures UniqueIds(Run(expenses, actions))
    decreases |actions|
  {
    if |actions| > 0 {
      StepKeepsIdsUnique(expenses, actions[0]);
      RunKeepsIdsUnique(Step(expenses, actions[0]), actions[1..]);
    }
  }
}

=== FILE: expense_view.dfy ===
/**
 What the expense tracker shows of its list: the filtered view (search, month
 of the due date, category and payment status, all of which must hold), the
 reset button's criteria and the "filter active" test, and the three summary
 cards with their totals and counts.
 */
module ExpenseView {
  import opened Seqs
  import opened Calendar
  import opened Text
  import opened ExpenseStore

  /** The status selector: every expense, only paid ones, or only unpaid ones. */
  datatype StatusFilter = All | PaidOnly | PendingOnly

  /** The four filter controls above the list; `filterMonth` is any instant in the chosen month. */
  datatype Criteria = Criteria(
    searchTerm: string,
    filterMonth: Option<int>,
    filterCategory: string,
    filterStatus: StatusFilter)

  /** The category control: empty imposes nothing, otherwise the category must be exactly it. */
  predicate MatchesCategory(filterCategory: string, category: string)
  {
    filterCategory == "" || category == filterCategory
  }

  predicate MatchesStatus(filterStatus: StatusFilter, isPaid: bool)
  {
    match filterStatus
    case All => true
    case PaidOnly => isPaid
    case PendingOnly => !isPaid
  }

  /** An expense stays in the view when all four controls accept it. */
  predicate Matches(c: Criteria, e: Expense)
  {
    && MatchesSearch(c.searchTerm, e.description, e.category)
    && MatchesMonth(c.filterMonth, e.dueDate)
    && MatchesCategory(c.filterCategory, e.category)
    && MatchesStatus(c.filterStatus, e.isPaid)
  }

  /** `Matches(c, _)` as a function value, so that every use names the same predicate. */
  function Matcher(c: Criteria): Expense -> bool
  {
    e => Matches(c, e)
  }

  /** The filtered list the tracker renders. */
  function FilterExpenses(c: Criteria, expenses: seq<Expense>): (r: seq<Expense>)
    ensures IsSubsequence(r, expenses)
    ensures forall i :: 0 <= i < |r| ==> Matches(c, r[i])
    ensures forall i :: 0 <= i < |expenses| && Matches(c, expenses[i]) ==> expenses[i] in r
    ensures forall e :: e in r ==> e in expenses
    ensures forall e :: multiset(r)[e] == if Matches(c, e) then multiset(expenses)[e] else 0
  {
    FilterSelects(Matcher(c), expenses);
    FilterMultiplicity(Matcher(c), expenses);
    Filter(Matcher(c), expenses)
  }

  /** The criteria the "clear filters" button sets: every control accepts every expense. */
  function ResetFilters(): (c: Criteria)
    ensures c.filterMonth.None? && c.filterStatus == All
    ensures forall e :: Matches(c, e)
  {
    var c := Criteria("", None, "", All);
    assert forall e :: Matches(c, e) by {
      forall e: Expense ensures Matches(c, e) {
        EmptySearchMatchesAll(e.description, e.category);
      }
    }
    c
  }

  /**
   Whether the "clear filters" button is shown: exactly when some control
   differs from what the button sets.
   */
  function IsFilterActive(c: Criteria): (active: bool)
    ensures !active <==> c == ResetFilters()
    ensures !active ==> forall e :: Matches(c, e)
  {
    c.searchTerm != "" || c.filterMonth.Some? || c.filterCategory != "" || c.filterStatus != All
  }

  /** After a reset no filter is active. */
  lemma ResetDeactivatesFilters()
    ensures !IsFilterActive(ResetFilters())
  {
  }

  /** With no filter active, every expense is shown, in its original order. */
  lemma {:induction false} InactiveFilterShowsAll(c: Criteria, expenses: seq<Expense>)
    requires !IsFilterActive(c)
    ensures FilterExpenses(c, expenses) == expenses
  {
    forall i | 0 <= i < |expenses| ensures Matches(c, expenses[i]) {
      EmptySearchMatchesAll(expenses[i].description, expenses[i].category);
    }
    FilterAllPass(Matcher(c), expenses);
  }

  /** The criteria after a reset show the whole list. */
  lemma {:induction false} ResetShowsAll(expenses: seq<Expense>)
    ensures FilterExpenses(ResetFilters(), expenses) == expenses
  {
    ResetDeactivatesFilters();
    InactiveFilterShowsAll(ResetFilters(), expenses);
  }

  /** Filtering the filtered view changes nothing. */
  lemma {:induction false} FilterExpensesIdempotent(c: Criteria, expenses: seq<Expense>)
    ensures FilterExpenses(c, FilterExpenses(c, expenses)) == FilterExpenses(c, expenses)
  {
    FilterIdempotent(Matcher(c), expenses);
  }

  function Amount(e: Expense): real
  {
    e.amount
  }

  predicate IsPaid(e: Expense)
  {
    e.isPaid
  }

  predicate IsPending(e: Expense)
  {
    !e.isPaid
  }

  /** The three summary cards: total, paid and pending sums, with the number of expenses under each. */
  datatype Summary = Summary(
    total: real, count: nat,
    paid: real, paidCount: nat,
    pending: real, pendingCount: nat)

  /** An expense's contribution to the paid card: its amount when paid, nothing otherwise. */
  function PaidAmount(e: Expense): real
  {
    if e.isPaid then e.amount else 0.0
  }

  /** An expense's contribution to the pending card: its amount when unpaid, nothing otherwise. */
  function PendingAmount(e: Expense): real
  {
    if e.isPaid then 0.0 else e.amount
  }

  /** The summary cards computed from the filtered view. */
  function Summarize(view: seq<Expense>): (s: Summary)
    ensures s.total == Sum(Amount, view) && s.count == |view|
    ensures s.paid == Sum(PaidAmount, view) && s.paidCount == Count(IsPaid, view)
    ensures s.pending == Sum(PendingAmount, view) && s.pendingCount == Count(IsPending, view)
    ensures s.paid + s.pending == s.total
    ensures s.paidCount + s.pendingCount == s.count
    ensures s.paidCount == 0 ==> s.pending == s.total
    ensures s.pendingCount == 0 ==> s.paid == s.total
  {
    FilterPartition(IsPaid, IsPending, Amount, view);
    SumOfFilter(IsPaid, Amount, PaidAmount, view);
    SumOfFilter(IsPending, Amount, PendingAmount, view);
    FilterLength(IsPaid, view);
    FilterLength(IsPending, view);
    var paid := Filter(IsPaid, view);
    var pending := Filter(IsPending, view);
    assert |paid| == 0 ==> paid == [];
    assert |pending| == 0 ==> pending == [];
    Summary(Sum(Amount, view), |view|, Sum(Amount, paid), |paid|, Sum(Amount, pending), |pending|)
  }

  /** An expense's contribution to the total card under criteria `c`. */
  function MatchedAmount(c: Criteria): Expense -> real
  {
    e => if Matches(c, e) then e.amount else 0.0
  }

  /** An expense's contribution to the paid card under criteria `c`. */
  function MatchedPaidAmount(c: Criteria): Expense -> real
  {
    e => if Matches(c, e) && e.isPaid then e.amount else 0.0
  }

  /** An expense's contribution to the pending card under criteria `c`. */
  function MatchedPendingAmount(c: Criteria): Expense -> real
  {
    e => if Matches(c, e) && !e.isPaid then e.amount else 0.0
  }

  /**
   The cards above the list sum the amounts of exactly the expenses every
   active filter accepts: all of them for the total, the paid ones for the
   paid card and the unpaid ones for the pending card.
   */
  lemma {:induction false} CardsSumMatchingExpenses(c: Criteria, expenses: seq<Expense>)
    ensures Summarize(FilterExpenses(c, expenses)).total == Sum(MatchedAmount(c), expenses)
    ensures Summarize(FilterExpenses(c, expenses)).paid == Sum(MatchedPaidAmount(c), expenses)
    ensures Summarize(FilterExpenses(c, expenses)).pending == Sum(MatchedPendingAmount(c), expenses)
  {
    SumOfFilter(Matcher(c), Amount, MatchedAmount(c), expenses);
    SumOfFilter(Matcher(c), PaidAmount, MatchedPaidAmount(c), expenses);
    SumOfFilter(Matcher(c), PendingAmount, MatchedPendingAmount(c), expenses);
  }

  /** With positive amounts, neither the paid nor the pending sum exceeds the total. */
  lemma {:induction false} BucketsBoundedByTotal(view: seq<Expense>)
    requires forall i :: 0 <= i < |view| ==> view[i].amount > 0.0
    ensures 0.0 <= Summarize(view).paid <= Summarize(view).total
    ensures 0.0 <= Summarize(view).pending <= Summarize(view).total
  {
    SumNonNegative(Filter(IsPaid, view));
    SumNonNegative(Filter(IsPending, view));
  }

  lemma {:induction false} SumNonNegative(s: seq<Expense>)
    requires forall i :: 0 <= i < |s| ==> s[i].amount > 0.0
    ensures Sum(Amount, s) >= 0.0
  {
    if |s| > 0 {
      SumNonNegative(s[1..]);
    }
  }
}

=== FILE: income_view.dfy ===
/**
 The income tracker's filtered list: search, month of the income's `date`, and
 category, where the category selector also offers the "all" sentinel.
 */
module IncomeView {
  import opened Seqs
  import opened Calendar
  import opened Text

  /** One income; `date` is an instant in epoch milliseconds. */
  datatype Income = Income(id: int, description: string, amount: real, date: int, category: string)

  /** The three filter controls; `filterMonth` is any instant in the chosen month. */
  datatype Criteria = Criteria(searchTerm: string, filterMonth: Option<int>, filterCategory: string)

  /** The selector value that stands for every category. */
  const AllCategories: string := "all"

  /** The category control: empty or "all" imposes nothing, otherwise exact equality. */
  predicate MatchesCategory(filterCategory: string, category: string)
  {
    filterCategory == "" || filterCategory == AllCategories || category == filterCategory
  }

  predicate Matches(c: Criteria, income: Income)
  {
    && MatchesSearch(c.searchTerm, income.description, income.category)
    && MatchesMonth(c.filterMonth, income.date)
    && MatchesCategory(c.filterCategory, income.category)
  }

  /** `Matches(c, _)` as a function value, so that every use names the same predicate. */
  function Matcher(c: Criteria): Income -> bool
  {
    income => Matches(c, income)
  }

  /** The filtered list the tracker renders. */
  function FilterIncomes(c: Criteria, incomes: seq<Income>): (r: seq<Income>)
    ensures IsSubsequence(r, incomes)
    ensures forall i :: 0 <= i < |r| ==> Matches(c, r[i])
    ensures forall i :: 0 <= i < |incomes| && Matches(c, incomes[i]) ==> incomes[i] in r
    ensures forall x :: x in r ==> x in incomes
    ensures forall x :: multiset(r)[x] == if Matches(c, x) then multiset(incomes)[x] else 0
  {
    FilterSelects(Matcher(c), incomes);
    FilterMultiplicity(Matcher(c), incomes);
    Filter(Matcher(c), incomes)
  }

  /** Either wildcard accepts every category; any other value accepts exactly itself. */
  lemma {:induction false} CategoryFilterCases(filterCategory: string, category: string)
    ensures filterCategory == "" ==> MatchesCategory(filterCategory, category)
    ensures filterCategory == "all" ==> MatchesCategory(filterCategory, category)
    ensures filterCategory != "" && filterCategory != "all" ==>
              (MatchesCategory(filterCategory, category) <==> category == filterCategory)
  {
  }

  /** The month filter compares month and year of the income's date and nothing else. */
  lemma MonthFilterCases(filterMonth: int, income: Income)
    ensures MatchesMonth(None, income.date)
    ensures MatchesMonth(Some(filterMonth), income.date) <==>
              DateOf(income.date).year == DateOf(filterMonth).year
              && DateOf(income.date).month == DateOf(filterMonth).month
  {
  }

  /** With every criterion empty, every income is shown, in its original order. */
  lemma {:induction false} EmptyCriteriaShowAll(incomes: seq<Income>)
    ensures FilterIncomes(Criteria("", None, ""), incomes) == incomes
  {
    var c := Criteria("", None, "");
    forall i | 0 <= i < |incomes| ensures Matches(c, incomes[i]) {
      EmptySearchMatchesAll(incomes[i].description, incomes[i].category);
    }
    FilterAllPass(Matcher(c), incomes);
  }

  /** The "all" sentinel shows the same list as an empty category. */
  lemma {:induction false} AllSentinelEqualsEmpty(searchTerm: string, filterMonth: Option<int>, incomes: seq<Income>)
    ensures FilterIncomes(Criteria(searchTerm, filterMonth, "all"), incomes)
         == FilterIncomes(Criteria(searchTerm, filterMonth, ""), incomes)
  {
    var a := Criteria(searchTerm, filterMonth, "all");
    var e := Criteria(searchTerm, filterMonth, "");
    FilterAgreeing(Matcher(a), Matcher(e), incomes);
  }

  /** Filtering the filtered view changes nothing. */
  lemma {:induction false} FilterIncomesIdempotent(c: Criteria, incomes: seq<Income>)
    ensures FilterIncomes(c, FilterIncomes(c, incomes)) == FilterIncomes(c, incomes)
  {
    FilterIdempotent(Matcher(c), incomes);
  }
}

=== FILE: progress_bar.dfy ===
/**
 The fill percentage of the progress bar used by the savings goals:
 `Math.min(Math.max(0, (value / max) * 100), 100)`.
 */
module ProgressBar {

  /** The bar's fill, in percent of its width. */
  function Percent(value: real, max: real): (p: real)
    requires max > 0.0
    ensures 0.0 <= p <= 100.0
    ensures value >= max ==> p == 100.0
    ensures value <= 0.0 ==> p == 0.0
    ensures 0.0 <= value <= max ==> p * max == value * 100.0
  {
    var raw := (value / max) * 100.0;
    RatioBounds(value, max);
    var atLeastZero := if raw > 0.0 then raw else 0.0;
    if atLeastZero < 100.0 then atLeastZero else 100.0
  }

  /** Where the ratio falls relative to 0 and 1. */
  lemma RatioBounds(value: real, max: real)
    requires max > 0.0
    ensures value >= max ==> value / max >= 1.0
    ensures value <= 0.0 ==> value / max <= 0.0
    ensures (value / max) * max == value
  {
  }

  /** A larger value never shows a shorter bar. */
  lemma PercentMonotone(v1: real, v2: real, max: real)
    requires max > 0.0
    requires v1 <= v2
    ensures Percent(v1, max) <= Percent(v2, max)
  {
    assert v1 / max <= v2 / max by {
      RatioBounds(v1, max);
      RatioBounds(v2, max);
      RatioBounds(v2 - v1, max);
      assert (v2 - v1) / max == v2 / max - v1 / max;
    }
  }

  /** The goals shown on the dashboard: 3000 of 10000 and 1500 of 5000 are both 30%. */
  lemma GoalExamples()
    ensures Percent(3000.0, 10000.0) == 30.0
    ensures Percent(1500.0, 5000.0) == 30.0
  {
  }
}

=== FILE: seqs.dfy ===
/**
 Sequence utilities shared by every view of the dashboard: the optional value
 used for unset form fields and filters, `Array.prototype.filter` as an
 order-preserving selection, and the `reduce` sum of amounts.
 */
module Seqs {

  /** An optional value: an unset date picker, no edited record, no month filter. */
  datatype Option<T> = None | Some(value: T)

  /** `sub` can be obtained from `s` by deleting elements, keeping the order of the rest. */
  ghost predicate IsSubsequence<T>(sub: seq<T>, s: seq<T>)
    decreases |s|
  {
    if |sub| == 0 then true
    else if |s| == 0 then false
    else (sub[0] == s[0] && IsSubsequence(sub[1..], s[1..])) || IsSubsequence(sub, s[1..])
  }

  /** The elements of `s` that satisfy `p`, in their original order. */
  function Filter<T>(p: T -> bool, s: seq<T>): (r: seq<T>)
    ensures |r| <= |s|
    ensures forall i :: 0 <= i < |r| ==> p(r[i])
    ensures forall x :: x in r ==> x in s && p(x)
  {
    if |s| == 0 then []
    else if p(s[0]) then [s[0]] + Filter(p, s[1..])
    else Filter(p, s[1..])
  }

  /**
   The filter drops nothing that passes and keeps the survivors in their
   original order.
   */
  lemma {:induction false} FilterSelects<T>(p: T -> bool, s: seq<T>)
    ensures forall i :: 0 <= i < |s| && p(s[i]) ==> s[i] in Filter(p, s)
    ensures IsSubsequence(Filter(p, s), s)
  {
    if |s| > 0 {
      FilterSelects(p, s[1..]);
      var r := Filter(p, s[1..]);
      if p(s[0]) {
        assert ([s[0]] + r)[1..] == r;
      }
      forall i | 0 < i < |s| && p(s[i]) ensures s[i] in Filter(p, s) {
        assert s[i] == s[1..][i - 1];
      }
    }
  }

  /** Every element that passes keeps all its copies; every other element loses them all. */
  lemma {:induction false} FilterMultiplicity<T>(p: T -> bool, s: seq<T>)
    ensures forall x :: multiset(Filter(p, s))[x] == if p(x) then multiset(s)[x] else 0
  {
    if |s| > 0 {
      FilterMultiplicity(p, s[1..]);
      assert s == [s[0]] + s[1..];
      assert multiset(s) == multiset{s[0]} + multiset(s[1..]);
      if p(s[0]) {
        assert multiset(Filter(p, s)) == multiset{s[0]} + multiset(Filter(p, s[1..]));
      }
    }
  }

  /** The number of elements of `s` that satisfy `p`. */
  function Count<T>(p: T -> bool, s: seq<T>): nat
  {
    if |s| == 0 then 0 else (if p(s[0]) then 1 else 0) + Count(p, s[1..])
  }

  /** The filter keeps as many elements as pass. */
  lemma {:induction false} FilterLength<T>(p: T -> bool, s: seq<T>)
    ensures |Filter(p, s)| == Count(p, s)
  {
    if |s| > 0 {
      FilterLength(p, s[1..]);
    }
  }

  /**
   Summing `f` over the elements that pass is summing `g` over all of them,
   when `g` is `f` on the passing elements and zero elsewhere.
   */
  lemma {:induction false} SumOfFilter<T>(p: T -> bool, f: T -> real, g: T -> real, s: seq<T>)
    requires forall x :: g(x) == if p(x) then f(x) else 0.0
    ensures Sum(f, Filter(p, s)) == Sum(g, s)
  {
    if |s| > 0 {
      SumOfFilter(p, f, g, s[1..]);
    }
  }

  /** Filtering a sequence whose every element passes returns it unchanged. */
  lemma {:induction false} FilterAllPass<T>(p: T -> bool, s: seq<T>)
    requires forall i :: 0 <= i < |s| ==> p(s[i])
    ensures Filter(p, s) == s
  {
    if |s| > 0 {
      FilterAllPass(p, s[1..]);
    }
  }

  /** Applying the same filter twice gives the result of applying it once. */
  lemma {:induction false} FilterIdempotent<T>(p: T -> bool, s: seq<T>)
    ensures Filter(p, Filter(p, s)) == Filter(p, s)
  {
    FilterAllPass(p, Filter(p, s));
  }

  /** Two predicates that agree on every element select the same elements. */
  lemma {:induction false} FilterAgreeing<T>(p: T -> bool, q: T -> bool, s: seq<T>)
    requires forall i :: 0 <= i < |s| ==> p(s[i]) == q(s[i])
    ensures Filter(p, s) == Filter(q, s)
  {
    if |s| > 0 {
      FilterAgreeing(p, q, s[1..]);
    }
  }

  /** A one-element sequence is kept or dropped whole. */
  lemma FilterSingleton<T>(p: T -> bool, x: T)
    ensures Filter(p, [x]) == if p(x) then [x] else []
  {
    assert [x][1..] == [];
  }

  /** Filtering distributes over concatenation. */
  lemma {:induction false} FilterConcat<T>(p: T -> bool, a: seq<T>, b: seq<T>)
    ensures Filter(p, a + b) == Filter(p, a) + Filter(p, b)
  {
    if |a| == 0 {
      assert a + b == b;
    } else {
      assert (a + b)[1..] == a[1..] + b;
      FilterConcat(p, a[1..], b);
    }
  }

  /** Filtering a non-empty sequence filters its head, then its tail. */
  lemma FilterHeadTail<T>(p: T -> bool, s: seq<T>)
    requires |s| > 0
    ensures Filter(p, s) == Filter(p, [s[0]]) + Filter(p, s[1..])
  {
    FilterSingleton(p, s[0]);
  }

  /** Two pieces that commute can swap in front of a third. */
  lemma SwapFront<T>(h: seq<T>, x: seq<T>, ts: seq<T>)
    requires h + x == x + h
    ensures h + (x + ts) == x + (h + ts)
  {
    assert h + (x + ts) == (h + x) + ts;
  }

  /** Filtering a prefix gives a prefix of the filtered sequence. */
  lemma {:induction false} FilterOfPrefix<T>(p: T -> bool, s: seq<T>, k: nat)
    requires k <= |s|
    ensures Filter(p, s[..k]) <= Filter(p, s)
  {
    assert s == s[..k] + s[k..];
    FilterConcat(p, s[..k], s[k..]);
  }

  /** Filtering splits around any position of the sequence. */
  lemma {:induction false} FilterSplitAt<T>(p: T -> bool, s: seq<T>, j: nat)
    requires j < |s|
    ensures Filter(p, s) == Filter(p, s[..j]) + Filter(p, [s[j]]) + Filter(p, s[j + 1..])
  {
    assert s == s[..j] + [s[j]] + s[j + 1..];
    FilterConcat3(p, s[..j], [s[j]], s[j + 1..]);
  }

  lemma {:induction false} FilterConcat3<T>(p: T -> bool, a: seq<T>, b: seq<T>, c: seq<T>)
    ensures Filter(p, a + b + c) == Filter(p, a) + Filter(p, b) + Filter(p, c)
  {
    FilterConcat(p, a + b, c);
    FilterConcat(p, a, b);
  }

  /** The sum of `f` over `s` (`reduce((sum, x) => sum + f(x), 0)`). */
  function Sum<T>(f: T -> real, s: seq<T>): real
  {
    if |s| == 0 then 0.0 else f(s[0]) + Sum(f, s[1..])
  }

  /**
   When `q` is the negation of `p`, the two filters split `s`: their lengths
   and their sums add up to those of `s`.
   */
  lemma {:induction false} FilterPartition<T>(p: T -> bool, q: T -> bool, f: T -> real, s: seq<T>)
    requires forall x :: q(x) == !p(x)
    ensures |Filter(p, s)| + |Filter(q, s)| == |s|
    ensures Sum(f, Filter(p, s)) + Sum(f, Filter(q, s)) == Sum(f, s)
  {
    if |s| > 0 {
      FilterPartition(p, q, f, s[1..]);
    }
  }

  /** The smaller of two integers. */
  function Min(a: int, b: int): int
  {
    if a <= b then a else b
  }
}

=== FILE: text.dfy ===
/**
 The case-insensitive substring search shared by the expense and income
 trackers: `x.toLowerCase().includes(term.toLowerCase())` on the description
 or on the category.
 */
module Text {

  /**
   `toLowerCase` on one character, for the letters the tracker's Portuguese
   labels use: ASCII `A`-`Z` and the Latin-1 capitals `À`-`Þ` (except `×`).
   */
  function LowerChar(c: char): char
  {
    if IsCapital(c) then (c as int + 32) as char else c
  }

  /** The capitals `LowerChar` lowers. */
  predicate IsCapital(c: char)
  {
    'A' <= c <= 'Z' || ('À' <= c <= 'Þ' && c != '×')
  }

  /**
   `String.prototype.toLowerCase`, character by character: no capital is left,
   and every other character is kept where it was.
   */
  function ToLower(s: string): (r: string)
    ensures |r| == |s|
    ensures forall i :: 0 <= i < |r| ==> r[i] == LowerChar(s[i])
    ensures forall i :: 0 <= i < |r| ==> !IsCapital(r[i])
    ensures forall i :: 0 <= i < |s| && !IsCapital(s[i]) ==> r[i] == s[i]
  {
    seq(|s|, i requires 0 <= i < |s| => LowerChar(s[i]))
  }

  /** Lower-casing is idempotent, so a lower-cased term is searched as itself. */
  lemma {:induction false} ToLowerIdempotent(s: string)
    ensures ToLower(ToLower(s)) == ToLower(s)
  {
  }

  /** `needle` occurs in `hay` starting at index `i`. */
  predicate OccursAt(hay: string, needle: string, i: int)
  {
    0 <= i && i + |needle| <= |hay| && hay[i..i + |needle|] == needle
  }

  /** `hay.includes(needle)`, scanning the start positions from left to right. */
  function Includes(hay: string, needle: string): (r: bool)
    ensures r <==> exists i :: OccursAt(hay, needle, i)
    decreases |hay|
  {
    if needle <= hay then
      assert OccursAt(hay, needle, 0);
      true
    else if |hay| == 0 then
      false
    else
      var r := Includes(hay[1..], needle);
      if r then
        var i :| OccursAt(hay[1..], needle, i);
        assert OccursAt(hay, needle, i + 1);
        true
      else
        assert forall i :: OccursAt(hay, needle, i) ==> OccursAt(hay[1..], needle, i - 1);
        false
  }

  /**
   The search predicate of both trackers: the lower-cased term occurs in the
   lower-cased description or in the lower-cased category.
   */
  function MatchesSearch(term: string, description: string, category: string): (r: bool)
    ensures r <==>
              || (exists i :: OccursAt(ToLower(description), ToLower(term), i))
              || (exists i :: OccursAt(ToLower(category), ToLower(term), i))
  {
    Includes(ToLower(description), ToLower(term)) || Includes(ToLower(category), ToLower(term))
  }

  /** An empty search term matches every record. */
  lemma {:induction false} EmptySearchMatchesAll(description: string, category: string)
    ensures MatchesSearch("", description, category)
  {
    assert OccursAt(ToLower(description), ToLower(""), 0);
  }

  /** The search ignores the case of the term. */
  lemma {:induction false} SearchIgnoresTermCase(term: string, description: string, category: string)
    ensures MatchesSearch(ToLower(term), description, category) <==> MatchesSearch(term, description, category)
  {
    ToLowerIdempotent(term);
  }

  /** A term found verbatim in the description is found by the search. */
  lemma {:induction false} SearchFindsDescriptionSubstring(term: string, description: string, category: string, i: int)
    requires OccursAt(description, term, i)
    ensures MatchesSearch(term, description, category)
  {
    assert ToLower(description)[i..i + |term|] == ToLower(term);
    assert OccursAt(ToLower(description), ToLower(term), i);
  }
}
